=== FILE: README.md ===
# Virtual Lab node runtime, modelled in Dafny

This project models the Lab node runtime of the Virtual Lab system. A Lab node
is a Raspberry Pi that switches power to experiment hardware through a relay.
It may only do so while a session booked on the central controller (the
Master) is active. It registers with the Master, sends heartbeats, accepts
session start and end pushed by the Master, and streams microphone audio. An
alternate deployment polls the Master for the active session instead.

There are seven modules, one per concern:

- `Common` (common.dfy): an `Option` type, Python truthiness of an optional
  string, and `str.rstrip` for one character.
- `LabNode` (lab_node.dfy): the `LabPiState` record of `lab_pi_app.py` and
  every handler that changes it, each as a pure transition. A handler's inputs
  are:
  - the request fields;
  - the outcome of the call to the Master;
  - the outcome of the relay write (no GPIO, success, or raises);
  - the time in whole seconds.
- `LabNodeTraces` (lab_node_traces.dfy): the handlers driven as one event
  stream. It states relay safety, failure-counter discipline, idempotent end
  and failure-triggered re-registration. It also derives the outcome of a relay
  write from the GPIO setup, both as the app is written and corrected (see
  Findings).
- `SessionPoller` (session_poller.dfy): the poll-fallback controller of
  `lab_pi_session_poller.py`. `poll` is a transition over one response, and
  the relay calls it makes are returned. It also states the invariant "a
  remembered session implies running hardware".
- `AudioCapture` (audio_capture.dfy): the audio pipeline of `audio_capture.py`.
  It covers:
  - the start/stop lifecycle;
  - device selection;
  - the bounded queue of capacity 10 that drops a frame when full;
  - one iteration each of the capture loop and the send loop;
  - the module-level helpers around the global instance.
- `Base64` (base64.dfy): the base 64 encoding of section 4 of RFC 4648 that
  the capture loop applies to each frame, and a decoder that inverts it.
- `AudioHub` (audio_hub.dfy): the two dictionaries of `lab-pi/Audio/server.py`.
  `latest_audio` is a map. `audio_sessions` is a map together with the
  insertion order of its keys, because `disconnect` removes the first matching
  session in that order. Socket emissions are returned as values.

Python truthiness is kept where the code relies on it:
- `end_session` tests `if current_session_key`;
- the poller's "stopped" branch tests `if current_session_key or hardware_running`;
- the hub validates with `not lab_pi_id or not audio`.

In all three, an empty string behaves like `None`.

Where the behaviour the system is meant to have and the code disagree, the
model follows the code:
- The safety invariant "relay energized implies session active" is not
  guaranteed once relay writes can succeed, that is, with the corrected
  three-argument write (`LabNodeTraces.Write`, see "## Findings"). A failed
  power-off is then logged and the session is still cleared, so the relay stays
  recorded as on (`LabNodeTraces.FailedPowerOffLeavesRelayOn`). The invariant
  holds when every relay write succeeds (`LabNodeTraces.SafetyAlongRun`). As
  written, no write succeeds, so the relay flag is never set and the invariant
  holds trivially (`LabNodeTraces.AsWrittenNeverEnergizes`).
- `end_session` does nothing when the session has no key, so a session started
  without a key cannot be ended through `/api/session/end`, which still answers
  200 (`LabNodeTraces.KeylessSessionSurvivesApiEnd`).
- The push session-end gives the same state when applied twice. Each delivery
  attempts a power-off again, so it is not idempotent in the writes it makes.
- The poller's invariant can break when `relay_on` raises. The exception aborts
  `poll` after the new key is stored but before `hardware_running` is set
  (`SessionPoller.RaisingRelayBreaksInv`).
- Relay polarity differs between the two controllers. `lab_pi_app.py` writes 1
  to energize, while the poller is active low and writes 0 to energize. Each is
  modelled as written.

## Model

| member | source | states |
|---|---|---|
| Common.RStrip | audio_capture.py:35 | `rstrip('/')` gives a prefix of the input that does not end in the character, and everything it removed was that character |
| Common.RStripUnique | audio_capture.py:35 | those three properties determine the stripped string uniquely |
| Common.RStripIdempotent | audio_capture.py:35 | stripping twice is stripping once, and a string not ending in the character is unchanged |
| Base64.Encode | audio_capture.py:139 | `b64encode` of n bytes has length 4·⌈n/3⌉ |
| Base64.AlphabetTable | audio_capture.py:139 | the decoder's character table inverts the RFC 4648 alphabet |
| Base64.Decode | audio_capture.py:139 | a string decodes only when its length is a multiple of four |
| Base64.RoundTrip | audio_capture.py:139 | every frame decodes back to exactly its bytes from its encoding |
| Base64.EncodeAlphabet | audio_capture.py:139 | an encoded frame uses only alphabet characters and '=', and '=' only in the last two positions |
| LabNode.Initial | lab_pi_app.py:105-127 | a fresh node is unregistered, with no session, relay off, hardware not ready and no heartbeat failures |
| LabNode.Uptime | lab_pi_app.py:131-136 | `get_uptime` splits t seconds into hours·3600 + minutes·60 + seconds = t with minutes and seconds in [0, 60) |
| LabNode.UptimeUnique | lab_pi_app.py:133-135 | that decomposition is the only one with minutes and seconds below 60 |
| LabNode.PowerOn | lab_pi_app.py:326-335 | the relay flag becomes true only after a write that does not raise; without GPIO or on a raise nothing changes |
| LabNode.PowerOff | lab_pi_app.py:337-346 | the relay flag becomes false only after a successful write; a raising write leaves it on |
| LabNode.InstallSession | lab_pi_app.py:297-306 | a heartbeat-delivered session sets the four session fields, replacing any session, then attempts power-on; nothing outside the session and relay changes |
| LabNode.ClearSession | lab_pi_app.py:425-428 | the four session fields are cleared and nothing else changes |
| LabNode.EndSession | lab_pi_app.py:419-428 | with no truthy key nothing happens even if a session is active; otherwise power-off is attempted and the four fields are cleared |
| LabNode.SessionStart | lab_pi_app.py:548-575 | a header id other than the node's gives 401 and no change; otherwise 200, the session is replaced and power-on is attempted |
| LabNode.SessionEnd | lab_pi_app.py:578-597 | no id check and the key is ignored; the four fields are cleared unconditionally and power-off is attempted |
| LabNode.ApiEndSession | lab_pi_app.py:535-542 | 400 with no change when no session is active; otherwise 200 with the outcome of `end_session` |
| LabNode.RelayOn | lab_pi_app.py:495-509 | 403 and no change without a session; a successful write gives 200 and relay on; a raise gives 500 and no change; no GPIO gives 200 and no change |
| LabNode.RelayOff | lab_pi_app.py:512-526 | the same as relay on, with the relay turned off |
| LabNode.Command | lab_pi_app.py:600-640 | "restart" and "reboot" give 200 and schedule that action; anything else gives 400 and schedules nothing |
| LabNode.Register | lab_pi_app.py:218-247 | only a 200 with a JSON body records id and time and sets registered; the failure counter never changes |
| LabNode.Heartbeat | lab_pi_app.py:249-303 | success resets the counter and records the send time; a delivered session is installed and the relay flag is set only by a power-on write that succeeds, with that write attempted; non-200 or a transport error adds exactly one and changes nothing else; a non-JSON body or a malformed new session yields the counter values the exception path leaves |
| LabNode.HeartbeatLoopStep | lab_pi_app.py:373-395 | unregistered, only register is called; registered, the iteration is exactly the heartbeat (state and writes), followed, when it failed with the counter ≥ 5, by clearing registered and registering again |
| LabNode.MonitorStep | lab_pi_app.py:398-413 | the session ends only when active, started, and strictly more than 3600 s have elapsed |
| LabNodeTraces.WriteAsWritten | lab_pi_app.py:329-335 | as written, a relay write never succeeds: without GPIO it is skipped, with GPIO the two-argument call raises |
| LabNodeTraces.Write | lab_pi_app.py:329-335 | with the chip handle passed, a write succeeds exactly when GPIO is present and the driver accepts it |
| LabNodeTraces.StepSafe | lab_pi_app.py:326-346 | one event keeps "relay on implies session active, and no relay without GPIO" when its write cannot fail |
| LabNodeTraces.SafetyAlongRun | lab_pi_app.py:326-346 | from a safe state, every run whose writes succeed stays safe |
| LabNodeTraces.InitialSafe | lab_pi_app.py:111-118 | the constructed state is safe |
| LabNodeTraces.FailedPowerOffLeavesRelayOn | lab_pi_app.py:586-592 | a push end whose power-off raises clears the session with the relay still on, so safety is not guaranteed |
| LabNodeTraces.AsWrittenNeverEnergizes | lab_pi_app.py:329-335 | as written, no run of events ever turns the relay on |
| LabNodeTraces.CorrectedWriteSwitchesRelay | lab_pi_app.py:563-569 | with the corrected write, an authorized start energizes the relay and a push end de-energizes it |
| LabNodeTraces.StepKeepsHardwareReady | lab_pi_app.py:117 | no handler changes `hardware_ready` |
| LabNodeTraces.HardwareReadyConstant | lab_pi_app.py:117 | `hardware_ready` keeps its initial value along every run |
| LabNodeTraces.FailureCounterDiscipline | lab_pi_app.py:278-295 | the counter goes down only on a 200 heartbeat of a registered node, and then to at most 1; otherwise it stays or grows by one |
| LabNodeTraces.EndSessionIdempotent | lab_pi_app.py:419-428 | a second `end_session` finds no key and does nothing |
| LabNodeTraces.PushEndIdempotent | lab_pi_app.py:578-592 | a push end applied twice gives the same state as once, whatever the relay write does (including a raising power-off), and repeats its power-off write |
| LabNodeTraces.KeylessSessionSurvivesApiEnd | lab_pi_app.py:535-542 | a session started without a key is acknowledged with 200 by the end endpoint but stays active |
| LabNodeTraces.StartReplacesSession | lab_pi_app.py:563-566 | a session start replaces whatever session was active |
| LabNodeTraces.MonitorBoundary | lab_pi_app.py:402-409 | at exactly 3600 s nothing happens; at 3601 s a keyed session is ended |
| LabNodeTraces.FailedIteration | lab_pi_app.py:373-390 | one failing iteration of a registered node adds one to the counter and registers again exactly when the new count reaches 5; the session and relay are untouched |
| LabNodeTraces.FailStreakReRegisters | lab_pi_app.py:373-390 | after n failing iterations the counter is n, and the iteration re-registers exactly when n ≥ 5; the session and relay are untouched |
| LabNodeTraces.SuccessResetsCounter | lab_pi_app.py:278-282 | one successful heartbeat resets the counter to 0 |
| LabNodeTraces.HalfInstalledSessionIsStuck | lab_pi_app.py:285-303 | a new session whose data is not an object leaves an active session with no key or start, which neither the end endpoint nor the monitor can end |
| SessionPoller.GpioLevel | lab_pi_session_poller.py:60-68 | the relay is active low: on writes 0, off writes 1 |
| SessionPoller.Create | lab_pi_session_poller.py:80-86 | the admin URL loses every trailing '/', nothing is remembered and the hardware is off |
| SessionPoller.StartHardware | lab_pi_session_poller.py:135-139 | `relay_on` is called only when not running, after which the hardware runs; a raising call changes nothing |
| SessionPoller.StopHardware | lab_pi_session_poller.py:141-147 | `relay_off` is called only when running; the key and end time are cleared unless that call raises, in which case nothing changes |
| SessionPoller.Poll | lab_pi_session_poller.py:88-133 | a 404 changes nothing and waits 10 s more; other statuses, transport errors, unknown statuses and unparsable end times change nothing |
| SessionPoller.PollPreservesInv | lab_pi_session_poller.py:109-147 | when `relay_on` does not raise, a poll preserves "a remembered key implies running hardware", whether or not `relay_off` raises |
| SessionPoller.RaisingRelayBreaksInv | lab_pi_session_poller.py:109-112 | a raising `relay_on` stores the new key without marking the hardware running |
| SessionPoller.StartHardwareIdempotent | lab_pi_session_poller.py:135-139 | after a start the hardware runs, and a second start makes no call and changes nothing |
| SessionPoller.StopHardwareIdempotent | lab_pi_session_poller.py:141-147 | after a stop nothing is remembered and the hardware is off, and a second stop changes nothing |
| SessionPoller.NewKeyStarts | lab_pi_session_poller.py:109-112 | a running response with a new key stores it and starts the hardware |
| SessionPoller.SameKeySteadyState | lab_pi_session_poller.py:103-119 | a running response with the remembered key and an end time still ahead or absent only records the end time: no relay call, key and running hardware kept |
| SessionPoller.SameKeyNoRelayOn | lab_pi_session_poller.py:109-112 | a running response with the remembered key makes no `relay_on` call |
| SessionPoller.ElapsedRunningStops | lab_pi_session_poller.py:114-119 | an end time at or before now ends with no key and the hardware off, even right after starting it |
| SessionPoller.FailedStopKeepsNewSession | lab_pi_session_poller.py:109-119 | a successful `relay_on` followed by a raising `relay_off` in the same poll keeps the new key and end time with the hardware running |
| SessionPoller.ElapsedRunningRepeats | lab_pi_session_poller.py:114-119 | repeating an elapsed running response switches the relay on and off again on every poll |
| SessionPoller.StoppedStops | lab_pi_session_poller.py:121-124 | under the invariant, a stopped response leaves no key and the hardware off |
| SessionPoller.StoppedKeepsEmptyKey | lab_pi_session_poller.py:121-124 | the truthiness test lets an empty key survive a stopped response |
| SessionPoller.InvAlongPolls | lab_pi_session_poller.py:161-163 | the invariant holds at every point of the poll loop while no `relay_on` raises (any `relay_off` may raise) |
| SessionPoller.InvAlongPollsFrom | lab_pi_session_poller.py:161-163 | once the invariant holds, it holds after any sequence of polls whose `relay_on` does not raise |
| AudioCapture.Create | audio_capture.py:33-45 | the URL is stripped of trailing '/', the defaults are 16000 Hz, 1024 samples and mono, nothing is open, and the queue is empty |
| AudioCapture.FirstInputFrom | audio_capture.py:53-56 | the device search returns the lowest index with input channels, or none |
| AudioCapture.DefaultInputDevice | audio_capture.py:47-59 | None without PyAudio; otherwise the first input device among those queried before a query raised, and a device is found whenever one exists before the failing query |
| AudioCapture.Initialize | audio_capture.py:61-90 | true exactly when PyAudio works, a device is found and the stream opens; without PyAudio, or when instantiating it raises, nothing changes; otherwise the instance is held even when no device is found or opening fails |
| AudioCapture.Start | audio_capture.py:92-109 | already streaming gives true with no change; otherwise streaming afterwards exactly when initialization succeeded, with the instance and stream held on success and the failed initialization's state otherwise |
| AudioCapture.Stop | audio_capture.py:111-128 | afterwards not streaming and nothing held, whatever teardown raised; the configuration and the queue are unchanged |
| AudioCapture.Enqueue | audio_capture.py:141-144 | a full queue drops the new frame; otherwise the frame goes to the back |
| AudioCapture.CaptureStep | audio_capture.py:132-149 | a read frame is encoded and enqueued, the queue stays within 10, and nothing else changes |
| AudioCapture.SendStep | audio_capture.py:151-177 | the oldest frame is removed and posted once; an empty queue changes nothing |
| AudioCapture.DrainFifo | audio_capture.py:153-171 | k send steps post the k oldest frames in order, each once, and leave the rest queued |
| AudioCapture.OfferFillsThenDrops | audio_capture.py:141-144 | offering items to a queue of length at most 10 with no consumer yields the queue followed by the offers that fit, in order |
| AudioCapture.CaptureAllIsOffer | audio_capture.py:137-142 | capturing frames offers their base 64 encodings to the queue and changes nothing else |
| AudioCapture.CaptureFillsThenDrops | audio_capture.py:134-144 | with no sender, capture keeps the encodings of the first frames up to capacity, in order, and drops the rest |
| AudioCapture.DrainEverything | audio_capture.py:153-171 | as many send steps as queued frames empty the queue and post every frame in order |
| AudioCapture.FillFromEmpty | audio_capture.py:134-144 | from an empty queue, capture leaves exactly the encodings of the first (up to 10) frames |
| AudioCapture.CaptureThenDrain | audio_capture.py:132-171 | frames captured with no send-loop iteration between the captures (a stalled sender) and then sent are posted in capture order, each as its encoding |
| AudioCapture.PostsDecodeToFrames | audio_capture.py:139-166 | each such post's payload decodes back to the captured bytes |
| AudioCapture.StartIdempotent | audio_capture.py:94-95 | a second start after a successful one returns true and changes nothing |
| AudioCapture.StopIdempotent | audio_capture.py:111-128 | stopping twice is stopping once |
| AudioCapture.NoDeviceNoStart | audio_capture.py:69-73 | without an input device, start fails and the pipeline does not stream |
| AudioCapture.InitAudioCapture | audio_capture.py:193-202 | an instance is created exactly when PyAudio is available |
| AudioCapture.StartAudioStream | audio_capture.py:205-209 | without an instance it returns false; otherwise it delegates to `start` |
| AudioCapture.StopAudioStream | audio_capture.py:212-215 | without an instance nothing happens; otherwise the instance is stopped |
| AudioCapture.IsAudioStreaming | audio_capture.py:218-222 | true exactly when an instance exists and streams |
| AudioCapture.StreamingFollowsLifecycle | audio_capture.py:205-222 | after a successful start the module reports streaming, and after a stop it does not |
| AudioHub.Put | lab-pi/Audio/server.py:113-117 | assigning a session keeps an existing id in place and appends a new id, keeping the order consistent |
| AudioHub.RemoveAt | lab-pi/Audio/server.py:102-105 | deleting a session removes exactly that id from the table and from the order |
| AudioHub.FirstWithSid | lab-pi/Audio/server.py:102-103 | the scan finds the first session in insertion order with the socket id, or none |
| AudioHub.ReceiveAudio | lab-pi/Audio/server.py:28-56 | a missing or empty id or audio gives 400 and no change; otherwise that node's frame is replaced with defaults 16000 and 1, other nodes are untouched, the frame is broadcast, and the reply is 200 |
| AudioHub.HandleOffer | lab-pi/Audio/server.py:62-80 | the answer has type "answer", echoes the sdp, and names the session id, "default" when absent |
| AudioHub.CountActive | lab-pi/Audio/server.py:91 | the count is the number of active sessions from the given position on; at most the number of sessions there, and equal exactly when all of them are active |
| AudioHub.Status | lab-pi/Audio/server.py:85-92 | the status reports the number of sessions and the number of active sessions, equal exactly when all are active |
| AudioHub.AudioStart | lab-pi/Audio/server.py:107-124 | the session is set to this socket, active, for the node, overwriting any entry; the latest frame is replayed exactly when the node id is truthy and known |
| AudioHub.AudioStop | lab-pi/Audio/server.py:126-133 | the session is removed when present, the remaining ids keeping their insertion order; otherwise nothing changes; other sessions are untouched |
| AudioHub.Disconnect | lab-pi/Audio/server.py:98-105 | the hub changes exactly when some session has the socket id, and then the first such session in insertion order is the one removed, the rest keeping their order; every session it keeps is unchanged |
| AudioHub.AllActiveKept | lab-pi/Audio/server.py:113-117 | every handler keeps all sessions active, since the only insertion is an active session |
| AudioHub.StatusCountsAgree | lab-pi/Audio/server.py:88-92 | when all sessions are active (as from the empty hub), status reports equal counts |
| AudioHub.StartStopRoundTrip | lab-pi/Audio/server.py:107-133 | starting a new session and stopping it restores the hub |
| AudioHub.DisconnectUnique | lab-pi/Audio/server.py:102-105 | when exactly one session has the socket id, disconnect removes exactly that one |
| AudioHub.StartedIsOnlyMatch | lab-pi/Audio/server.py:113-117 | after a start from a socket holding no session, the started session is the only one with that socket id |
| AudioHub.DisconnectRemovesStarted | lab-pi/Audio/server.py:98-117 | a socket holding one session loses exactly that session when it disconnects |
| AudioHub.ReceiveThenStartReplays | lab-pi/Audio/server.py:119-121 | a listener that starts after a frame arrived is sent that frame |

## Left out

- HTTP, JSON and Flask are abstracted away. A call to the Master becomes its outcome: a status code and a parsed body, or a transport error.
- Request bodies that are not JSON objects are left out. In every route this raises before any state change, and the hub routes answer 500.
- `receive_audio` and `handle_offer` have a 500 path, and the poller has its catch-all exception handler. Both are modelled only through the cases above.
- Threads, sleeps and the loops' scheduling are left out. Each loop is one step function. Interleavings are the order of events in a run. The registration made at startup, while the heartbeat thread already runs, is an event of its own (`RegisterAttempt`).
- Atomicity: the Flask handlers, the heartbeat thread and the monitor thread update the session fields concurrently, and each update is meant to happen as one step. The model applies each handler whole, one event at a time, so interleavings inside a handler are not modelled.
- Timestamps are whole seconds. `total_seconds()` is a float that `get_uptime` truncates. The monitor compares the float with 3600, and the integer model agrees on whole seconds.
- ISO end times are modelled as already parsed instants, or as an `Unparsable` marker for a string `fromisoformat` rejects. Time zones are not modelled.
- `None` in a JSON body is treated like an absent key. `data.get('sample_rate', 16000)` with an explicit null is not distinguished.
- The system metrics, `last_heartbeat_response`, `connected_devices`, the status pages and the heartbeat payload contents are left out because they do not affect any modelled state.
- The Master notification in `end_session` is left out because its result is ignored.
- `api_command` runs `systemctl restart` or `reboot` through subprocess. These become a returned `Maintenance` action.
- Serial devices, camera, firmware upload and the UPS chip are left out because they are outside the node's session and relay logic.
- The poller's `gpio_handle` truthiness and `init_gpio` are left out. A `Faults` value says, for each poll, whether `relay_on` and whether `relay_off` raises; the two are independent.
- The cleanup after the poller's loop ends is left out because the loop never exits normally: `main` clears `running` only after `run` has already left through the interrupt, so the cleanup never runs.
- AudioCapture.Create: the constructor's optional `sample_rate`, `chunk_size` and `channels` arguments are fixed to their defaults, because `init_audio_capture` (audio_capture.py:201) passes only the URL and node id.
- The capture loop's `put(timeout=0.5)` is modelled as an immediate drop when the queue is full, since the model has no concurrent consumer during the wait.
- The capture loop's stream read exceptions and sleeps leave the pipeline unchanged, which the model states.
- SocketIO `emit` calls in the hub are returned as values. The acknowledgement events `audio_started` and `audio_stopped` carry only the session id, which is returned.
- `handle_connect` and `health` change nothing and are not modelled.
- `LabNode.Heartbeat`: a 200 body that is a JSON object with a non-object `session` is split into two cases. An absent `session` is `NewSessionMalformed`. A present `session` that is not an object is `NewSessionNotObject`. Other shapes of non-object JSON bodies are treated as `NewSessionMalformed` or `HeartbeatNotJson`.
- Base64: only encoding happens in the source. The decoder exists to state the round trip.

## Findings

| source | as written | input that shows it | evidently intended | confidence | as-written member | corrected member |
|---|---|---|---|---|---|---|
| lab_pi_app.py:329-335 | The app calls `lgpio.gpio_write(RELAY_PIN, 1)` and `lgpio.gpio_write(RELAY_PIN, 0)` with two arguments, also at lines 342, 503 and 520. lgpio's `gpio_write` takes a chip handle, a pin and a level, and the app never opens a chip. The call raises `TypeError`, which is caught, so whenever lgpio is loaded no write takes effect and `relay_state` is never set. | lgpio loaded, `RELAY_PIN` = 26, a push session-start with the node's own id: the reply is 200 but the relay stays off. The manual `/api/relay/on` answers 500. | Open the chip once with `gpiochip_open(0)` and claim the pin as output, as the poller does. Then call `gpio_write(handle, RELAY_PIN, level)`. | high that the call raises; not executed | LabNodeTraces.WriteAsWritten, LabNodeTraces.AsWrittenNeverEnergizes | LabNodeTraces.Write, LabNodeTraces.CorrectedWriteSwitchesRelay, LabNodeTraces.SafetyAlongRun |

=== FILE: audio_capture.dfy ===
/**
  The audio pipeline of `audio_capture.py`: an `AudioCapture` record with its
  start/stop lifecycle, the bounded frame queue between the capture loop and
  the send loop, one iteration of each loop, and the module-level helpers
  around the single global instance.
 */
module AudioCapture {
  import opened Common
  import Base64

  /** `queue.Queue(maxsize=10)`. */
  const QueueCapacity := 10
  const DefaultSampleRate := 16000
  const DefaultChunkSize := 1024
  const DefaultChannels := 1

  /** The fields of `AudioCapture`; `audioOpen` and `streamOpen` say whether
      the PyAudio instance and the input stream are held. */
  datatype Capture = Capture(
    masterUrl: string,
    labPiId: string,
    sampleRate: int,
    chunkSize: int,
    channels: int,
    audioOpen: bool,
    streamOpen: bool,
    streaming: bool,
    queue: seq<string>)

  /** What the audio library reports when the pipeline initializes: whether
      PyAudio is installed and can be instantiated, the `maxInputChannels` of
      each device by index, the index at which a device query raises (if any),
      and whether opening the input stream succeeds. */
  datatype Env = Env(
    pyaudioAvailable: bool,
    pyaudioOk: bool,
    inputChannels: seq<int>,
    queryFailsAt: Option<nat>,
    openOk: bool)

  /** One read of the capture stream: the stream is not active, the read
      raises, or a frame of bytes arrives. */
  datatype Read = StreamInactive | ReadRaises | Frame(data: seq<Base64.byte>)

  /** One POST to the Master's ingest endpoint. */
  datatype AudioPost = AudioPost(url: string, labPiId: string, audio: string, sampleRate: int, channels: int)

  /** The constructor with the default parameters: the URL loses every
      trailing '/', nothing is open, and the queue is empty. */
  function Create(masterUrl: string, labPiId: string): (c: Capture)
    ensures c.masterUrl == RStrip(masterUrl, '/')
    ensures |c.masterUrl| == 0 || c.masterUrl[|c.masterUrl| - 1] != '/'
    ensures c.labPiId == labPiId && c.sampleRate == DefaultSampleRate
    ensures c.chunkSize == DefaultChunkSize && c.channels == DefaultChannels
    ensures !c.audioOpen && !c.streamOpen && !c.streaming && c.queue == []
  {
    Capture(RStrip(masterUrl, '/'), labPiId, DefaultSampleRate, DefaultChunkSize, DefaultChannels,
            false, false, false, [])
  }

  /** The lowest index in [i, limit) whose device has input channels. */
  function FirstInputFrom(channels: seq<int>, limit: nat, i: nat): (r: Option<nat>)
    requires limit <= |channels| && i <= limit
    ensures r.Some? ==> i <= r.value < limit && channels[r.value] > 0
    ensures r.Some? ==> forall j :: i <= j < r.value ==> channels[j] <= 0
    ensures r.None? ==> forall j :: i <= j < limit ==> channels[j] <= 0
    decreases limit - i
  {
    if i == limit then None
    else if channels[i] > 0 then Some(i)
    else FirstInputFrom(channels, limit, i + 1)
  }

  /** `_get_default_input_device`: None without PyAudio or an instance;
      otherwise the lowest index with `maxInputChannels > 0` among the devices
      queried before one raised, or None. */
  function DefaultInputDevice(c: Capture, env: Env): (r: Option<nat>)
    ensures r.Some? ==> env.pyaudioAvailable && c.audioOpen
    ensures r.Some? ==> r.value < |env.inputChannels| && env.inputChannels[r.value] > 0
    ensures r.Some? ==> forall j :: 0 <= j < r.value ==> env.inputChannels[j] <= 0
    ensures r.Some? && env.queryFailsAt.Some? ==> r.value < env.queryFailsAt.value
    ensures (env.pyaudioAvailable && c.audioOpen
             && exists j :: && 0 <= j < |env.inputChannels| && env.inputChannels[j] > 0
                            && (env.queryFailsAt.None? || j < env.queryFailsAt.value)) ==> r.Some?
  {
    if !env.pyaudioAvailable || !c.audioOpen then None
    else
      var n := |env.inputChannels|;
      var limit := if env.queryFailsAt.Some? && env.queryFailsAt.value < n then env.queryFailsAt.value else n;
      FirstInputFrom(env.inputChannels, limit, 0)
  }

  /** `initialize`: false without PyAudio or when instantiating it raises (no
      change); otherwise the instance is held, and the stream is opened when a
      device is found and opening succeeds. */
  function Initialize(c: Capture, env: Env): (r: (Capture, bool))
    ensures r.1 <==> env.pyaudioAvailable && env.pyaudioOk && env.openOk
                     && DefaultInputDevice(c.(audioOpen := true), env).Some?
    ensures r.1 ==> r.0 == c.(audioOpen := true, streamOpen := true)
    ensures !env.pyaudioAvailable || !env.pyaudioOk ==> r == (c, false)
    ensures env.pyaudioAvailable && env.pyaudioOk && !r.1 ==> r.0 == c.(audioOpen := true)
  {
    if !env.pyaudioAvailable || !env.pyaudioOk then (c, false)
    else
      var held := c.(audioOpen := true);
      if DefaultInputDevice(held, env).None? || !env.openOk then (held, false)
      else (held.(streamOpen := true), true)
  }

  /** `start`: true at once when already streaming; false, still not
      streaming, when initialization fails; otherwise streaming and true. */
  function Start(c: Capture, env: Env): (r: (Capture, bool))
    ensures c.streaming ==> r == (c, true)
    ensures !c.streaming ==> r.1 == Initialize(c, env).1 && r.0.streaming == r.1
    ensures !c.streaming && r.1 ==> r.0 == c.(audioOpen := true, streamOpen := true, streaming := true)
    ensures !c.streaming && !r.1 ==> r.0 == Initialize(c, env).0
    ensures r.0.queue == c.queue && r.0.masterUrl == c.masterUrl
  {
    if c.streaming then (c, true)
    else
      var init := Initialize(c, env);
      if !init.1 then init
      else (init.0.(streaming := true), true)
  }

  /** `stop`: not streaming, stream and instance released, whatever the
      teardown calls raise. Queued frames stay queued. */
  function Stop(c: Capture): (r: Capture)
    ensures !r.streaming && !r.streamOpen && !r.audioOpen
    ensures r.queue == c.queue && r.masterUrl == c.masterUrl && r.labPiId == c.labPiId
    ensures r.sampleRate == c.sampleRate && r.chunkSize == c.chunkSize && r.channels == c.channels
  {
    c.(streaming := false, streamOpen := false, audioOpen := false)
  }

  /** `queue.put` that cannot wait: a full queue drops the new frame. */
  function Enqueue(q: seq<string>, frame: string): (r: seq<string>)
    ensures |q| < QueueCapacity ==> r == q + [frame]
    ensures |q| >= QueueCapacity ==> r == q
  {
    if |q| < QueueCapacity then q + [frame] else q
  }

  /** One iteration of `_capture_loop`: while streaming, with the stream open
      and active, a frame read is base 64 encoded and offered to the queue;
      every other case leaves the pipeline as it was. */
  function CaptureStep(c: Capture, read: Read): (r: Capture)
    ensures r == c.(queue := r.queue)
    ensures |c.queue| <= QueueCapacity ==> |r.queue| <= QueueCapacity
    ensures c.streaming && c.streamOpen && read.Frame? && |c.queue| < QueueCapacity ==>
      r.queue == c.queue + [Base64.Encode(read.data)]
    ensures !(c.streaming && c.streamOpen && read.Frame? && |c.queue| < QueueCapacity) ==> r == c
  {
    if c.streaming && c.streamOpen && read.Frame? then
      c.(queue := Enqueue(c.queue, Base64.Encode(read.data)))
    else c
  }

  /** One iteration of `_send_loop`: while streaming, the oldest frame is
      removed and posted once; the outcome of the post does not matter and the
      frame is never put back. An empty queue changes nothing. */
  function SendStep(c: Capture): (r: (Capture, Option<AudioPost>))
    ensures c.streaming && |c.queue| > 0 ==>
      r.0 == c.(queue := c.queue[1..])
      && r.1 == Some(AudioPost(c.masterUrl + "/api/audio/stream", c.labPiId, c.queue[0], c.sampleRate, c.channels))
    ensures !(c.streaming && |c.queue| > 0) ==> r == (c, None)
  {
    if c.streaming && |c.queue| > 0 then
      (c.(queue := c.queue[1..]),
       Some(AudioPost(c.masterUrl + "/api/audio/stream", c.labPiId, c.queue[0], c.sampleRate, c.channels)))
    else (c, None)
  }

  /** `k` send-loop iterations: the pipeline after them and the posts made. */
  function Drain(c: Capture, k: nat): (Capture, seq<AudioPost>)
    decreases k
  {
    if k == 0 then (c, [])
    else
      var (c1, post) := SendStep(c);
      var (c2, rest) := Drain(c1, k - 1);
      (c2, (if post.Some? then [post.value] else []) + rest)
  }

  /** Draining is FIFO and at-most-once: `k` iterations over a streaming
      pipeline post exactly the `k` oldest frames, oldest first, each once,
      and leave the rest queued. */
  lemma {:induction false} DrainFifo(c: Capture, k: nat)
    requires c.streaming && k <= |c.queue|
    ensures Drain(c, k).0 == c.(queue := c.queue[k..])
    ensures |Drain(c, k).1| == k
    ensures forall i :: 0 <= i < k ==> Drain(c, k).1[i].audio == c.queue[i]
    decreases k
  {
    if k > 0 {
      var c1 := c.(queue := c.queue[1..]);
      DrainFifo(c1, k - 1);
      assert c.queue[1..][k - 1..] == c.queue[k..];
      forall i | 0 <= i < k ensures Drain(c, k).1[i].audio == c.queue[i] {
        if i > 0 {
          assert Drain(c, k).1[i] == Drain(c1, k - 1).1[i - 1];
        }
      }
    }
  }

  /** `k` capture-loop iterations reading the given frames, with no sender. */
  function CaptureAll(c: Capture, frames: seq<seq<Base64.byte>>): Capture
    decreases |frames|
  {
    if |frames| == 0 then c else CaptureAll(CaptureStep(c, Frame(frames[0])), frames[1..])
  }

  /** Offering strings to the queue one by one with no consumer. */
  function OfferAll(q: seq<string>, xs: seq<string>): seq<string>
    decreases |xs|
  {
    if |xs| == 0 then q else OfferAll(Enqueue(q, xs[0]), xs[1..])
  }

  /** How many of `n` offers a queue of length `len` accepts. */
  function Kept(len: nat, n: nat): nat
  {
    if len + n <= QueueCapacity then n
    else if len <= QueueCapacity then QueueCapacity - len
    else 0
  }

  /** With no consumer, the queue keeps the offers that fit, in order, after
      its current contents, and drops every later one. */
  lemma {:induction false} OfferFillsThenDrops(q: seq<string>, xs: seq<string>)
    requires |q| <= QueueCapacity
    ensures OfferAll(q, xs) == q + xs[..Kept(|q|, |xs|)]
    decreases |xs|
  {
    if |xs| > 0 {
      var q1 := Enqueue(q, xs[0]);
      OfferFillsThenDrops(q1, xs[1..]);
      if |q| < QueueCapacity {
        assert Kept(|q|, |xs|) == Kept(|q1|, |xs| - 1) + 1;
        assert xs[..Kept(|q|, |xs|)] == [xs[0]] + xs[1..][..Kept(|q1|, |xs| - 1)];
      } else {
        assert Kept(|q1|, |xs| - 1) == 0;
      }
    }
  }

  /** The encodings of a list of frames. */
  function EncodeAll(frames: seq<seq<Base64.byte>>): (r: seq<string>)
    ensures |r| == |frames|
    ensures forall i :: 0 <= i < |frames| ==> r[i] == Base64.Encode(frames[i])
  {
    seq(|frames|, i requires 0 <= i < |frames| => Base64.Encode(frames[i]))
  }

  /** Capturing frames is offering their encodings. */
  lemma {:induction false} CaptureAllIsOffer(c: Capture, frames: seq<seq<Base64.byte>>)
    requires c.streaming && c.streamOpen
    ensures CaptureAll(c, frames) == c.(queue := OfferAll(c.queue, EncodeAll(frames)))
    decreases |frames|
  {
    if |frames| > 0 {
      var c1 := CaptureStep(c, Frame(frames[0]));
      assert c1.queue == Enqueue(c.queue, Base64.Encode(frames[0]));
      CaptureAllIsOffer(c1, frames[1..]);
      assert EncodeAll(frames)[1..] == EncodeAll(frames[1..]);
    }
  }

  /** Backpressure: with a sender that never drains, the capture loop keeps the
      first frames up to the capacity, in order and encoded, and silently drops
      every later one; nothing but the queue changes. */
  lemma CaptureFillsThenDrops(c: Capture, frames: seq<seq<Base64.byte>>)
    requires c.streaming && c.streamOpen && |c.queue| <= QueueCapacity
    ensures CaptureAll(c, frames) == c.(queue := c.queue + EncodeAll(frames)[..Kept(|c.queue|, |frames|)])
  {
    CaptureAllIsOffer(c, frames);
    OfferFillsThenDrops(c.queue, EncodeAll(frames));
  }

  /** Draining as many times as there are queued frames empties the queue and
      posts every frame, in order. */
  lemma DrainEverything(c: Capture)
    requires c.streaming
    ensures var (d, posts) := Drain(c, |c.queue|);
      && d == c.(queue := [])
      && |posts| == |c.queue|
      && forall i :: 0 <= i < |c.queue| ==> posts[i].audio == c.queue[i]
  {
    DrainFifo(c, |c.queue|);
    assert c.queue[|c.queue|..] == [];
  }

  /** From an empty queue and no sender, the queue ends up holding the
      encodings of the first frames, up to the capacity. */
  lemma FillFromEmpty(c: Capture, frames: seq<seq<Base64.byte>>)
    requires c.streaming && c.streamOpen && c.queue == []
    ensures var n := if |frames| <= QueueCapacity then |frames| else QueueCapacity;
      && CaptureAll(c, frames).streaming
      && CaptureAll(c, frames).queue == EncodeAll(frames)[..n]
  {
    CaptureFillsThenDrops(c, frames);
  }

  /** Backpressure end to end: an empty queue, any number of captured frames
      with no send-loop iteration between them (a stalled sender), then as many
      sends as the queue holds: the posts carry the encodings of the first (up
      to ten) frames, in capture order. */
  lemma CaptureThenDrain(c: Capture, frames: seq<seq<Base64.byte>>)
    requires c.streaming && c.streamOpen && c.queue == []
    ensures var filled := CaptureAll(c, frames);
      var n := if |frames| <= QueueCapacity then |frames| else QueueCapacity;
      var posts := Drain(filled, n).1;
      && |filled.queue| == n
      && Drain(filled, n).0.queue == []
      && |posts| == n
      && forall i :: 0 <= i < n ==> posts[i].audio == Base64.Encode(frames[i])
  {
    FillFromEmpty(c, frames);
    DrainEverything(CaptureAll(c, frames));
  }

  /** Each post made after the capture above decodes back to the bytes of the
      frame it carries. */
  lemma PostsDecodeToFrames(c: Capture, frames: seq<seq<Base64.byte>>, i: nat)
    requires c.streaming && c.streamOpen && c.queue == []
    requires i < |frames| && i < QueueCapacity
    ensures var n := if |frames| <= QueueCapacity then |frames| else QueueCapacity;
      var posts := Drain(CaptureAll(c, frames), n).1;
      i < |posts| && Base64.Decode(posts[i].audio) == Some(frames[i])
  {
    CaptureThenDrain(c, frames);
    Base64.RoundTrip(frames[i]);
  }

  /** `start` is idempotent: a second start returns true and changes nothing. */
  lemma StartIdempotent(c: Capture, env: Env, env': Env)
    ensures var first := Start(c, env);
      first.1 ==> Start(first.0, env') == (first.0, true)
  {
  }

  /** `stop` is idempotent. */
  lemma StopIdempotent(c: Capture)
    ensures Stop(Stop(c)) == Stop(c)
  {
  }

  /** Without an input device, `start` fails and the pipeline does not stream. */
  lemma NoDeviceNoStart(c: Capture, env: Env)
    requires !c.streaming
    requires forall j :: 0 <= j < |env.inputChannels| ==> env.inputChannels[j] <= 0
    ensures Start(c, env).1 == false && !Start(c, env).0.streaming
  {
    var held := c.(audioOpen := true);
    assert DefaultInputDevice(held, env).None?;
  }

  /** The global instance of the module. */
  type Global = Option<Capture>

  /** `init_audio_capture`: None without PyAudio, a fresh instance otherwise. */
  function InitAudioCapture(pyaudioAvailable: bool, masterUrl: string, labPiId: string): (g: Global)
    ensures g.Some? <==> pyaudioAvailable
    ensures g.Some? ==> g.value == Create(masterUrl, labPiId)
  {
    if pyaudioAvailable then Some(Create(masterUrl, labPiId)) else None
  }

  /** `start_audio_stream`: false without an instance, `start` otherwise. */
  function StartAudioStream(g: Global, env: Env): (r: (Global, bool))
    ensures g.None? ==> r == (None, false)
    ensures g.Some? ==> r.0 == Some(Start(g.value, env).0) && r.1 == Start(g.value, env).1
  {
    match g
    case None => (None, false)
    case Some(c) =>
      var (c', ok) := Start(c, env);
      (Some(c'), ok)
  }

  /** `stop_audio_stream`: nothing without an instance, `stop` otherwise. */
  function StopAudioStream(g: Global): (r: Global)
    ensures g.None? ==> r == None
    ensures g.Some? ==> r == Some(Stop(g.value)) && !r.value.streaming
  {
    match g
    case None => None
    case Some(c) => Some(Stop(c))
  }

  /** `is_audio_streaming`: true exactly when an instance exists and streams. */
  function IsAudioStreaming(g: Global): (r: bool)
    ensures r <==> g.Some? && g.value.streaming
  {
    g.Some? && g.value.streaming
  }

  /** After a successful start the module reports streaming, and after a stop
      it does not. */
  lemma StreamingFollowsLifecycle(g: Global, env: Env)
    ensures StartAudioStream(g, env).1 ==> IsAudioStreaming(StartAudioStream(g, env).0)
    ensures !IsAudioStreaming(StopAudioStream(g))
  {
  }
}

=== FILE: audio_hub.dfy ===
/**
  The bookkeeping of the audio relay hub (`lab-pi/Audio/server.py`): the
  latest frame per lab node, and the listener sessions keyed by session id.
  Python dictionaries keep insertion order and `disconnect` removes the first
  matching session in that order, so the session table is a map together with
  the order of its keys; the latest-frame table is a plain map. Socket emissions are returned as values.
 */
module AudioHub {
  import opened Common

  const DefaultSampleRate := 16000
  const DefaultChannels := 1
  const DefaultSessionId := "default"

  /** A stored frame. */
  datatype AudioEntry = AudioEntry(audio: string, sampleRate: int, channels: int)

  /** A listener session: the socket id, the active flag, the lab node. */
  datatype Session = Session(sid: string, active: bool, labPiId: Option<string>)

  /** The two tables; `order` lists the session ids in insertion order, the
      order in which Python iterates the dictionary. */
  datatype Hub = Hub(latest: map<string, AudioEntry>, sessions: map<string, Session>, order: seq<string>)

  // ---------------------------------------------------------------------------
  // The session table as an insertion-ordered dictionary
  // ---------------------------------------------------------------------------

  /** No element occurs twice. */
  predicate Distinct(s: seq<string>)
  {
    forall i, j :: 0 <= i < j < |s| ==> s[i] != s[j]
  }

  /** `order` lists exactly the session ids, each once. */
  predicate Valid(h: Hub)
  {
    && Distinct(h.order)
    && (forall k :: k in h.sessions ==> k in h.order)
    && (forall k :: k in h.order ==> k in h.sessions)
  }

  /** A sequence without repetitions has as many elements as its set. */
  lemma {:induction false} DistinctCardinality(s: seq<string>)
    requires Distinct(s)
    ensures |set k | k in s| == |s|
    decreases |s|
  {
    if |s| > 0 {
      var init := s[..|s| - 1];
      assert Distinct(init) by {
        forall i, j | 0 <= i < j < |init| ensures init[i] != init[j] {
          assert init[i] == s[i] && init[j] == s[j];
        }
      }
      DistinctCardinality(init);
      assert (set k | k in s) == (set k | k in init) + {s[|s| - 1]} by {
        assert s == init + [s[|s| - 1]];
      }
    }
  }

  /** In a valid hub there are as many sessions as ids in `order`. */
  lemma SessionCount(h: Hub)
    requires Valid(h)
    ensures |h.sessions| == |h.order|
  {
    DistinctCardinality(h.order);
    assert h.sessions.Keys == set k | k in h.order;
  }

  /** `d[k] = v`: an existing id keeps its position and takes the new value; a
      new id goes to the end of the order. */
  function Put(h: Hub, k: string, v: Session): (r: Hub)
    requires Valid(h)
    ensures Valid(r)
    ensures r.sessions == h.sessions[k := v] && r.latest == h.latest
    ensures k in h.sessions ==> r.order == h.order
    ensures k !in h.sessions ==> r.order == h.order + [k]
  {
    if k in h.sessions then h.(sessions := h.sessions[k := v])
    else h.(sessions := h.sessions[k := v], order := h.order + [k])
  }

  /** Dropping the element at `i` from a sequence without repetitions keeps
      every other element and no repetition. */
  lemma DropDistinct(o: seq<string>, i: nat)
    requires Distinct(o) && i < |o|
    ensures Distinct(o[..i] + o[i + 1..])
    ensures forall k :: k in o[..i] + o[i + 1..] <==> k in o && k != o[i]
  {
    var d := o[..i] + o[i + 1..];
    assert forall j :: 0 <= j < |d| ==> d[j] == (if j < i then o[j] else o[j + 1]);
    forall k ensures k in d <==> k in o && k != o[i] {
      if k in o && k != o[i] {
        var j :| 0 <= j < |o| && o[j] == k;
        if j < i { assert d[j] == k; } else { assert d[j - 1] == k; }
      }
    }
  }

  /** `del d[order[i]]`. */
  function RemoveAt(h: Hub, i: nat): (r: Hub)
    requires Valid(h) && i < |h.order|
    ensures Valid(r)
    ensures r.sessions == h.sessions - {h.order[i]} && r.latest == h.latest
    ensures r.order == h.order[..i] + h.order[i + 1..]
  {
    DropDistinct(h.order, i);
    h.(sessions := h.sessions - {h.order[i]}, order := h.order[..i] + h.order[i + 1..])
  }

  /** The position of the first id in `order` whose session has the given
      socket id, or `|order|`. */
  function FirstWithSid(h: Hub, sid: string, from: nat): (i: nat)
    requires Valid(h) && from <= |h.order|
    ensures from <= i <= |h.order|
    ensures forall j :: from <= j < i ==> h.sessions[h.order[j]].sid != sid
    ensures i < |h.order| ==> h.sessions[h.order[i]].sid == sid
    decreases |h.order| - from
  {
    if from == |h.order| then from
    else if h.sessions[h.order[from]].sid == sid then from
    else FirstWithSid(h, sid, from + 1)
  }

  /** The position of an id in `order`. */
  function IndexOf(order: seq<string>, k: string): (i: nat)
    requires k in order
    ensures i < |order| && order[i] == k
    decreases |order|
  {
    if order[0] == k then 0 else 1 + IndexOf(order[1..], k)
  }

  // ---------------------------------------------------------------------------
  // Handlers
  // ---------------------------------------------------------------------------

  /** The body of POST /api/audio/stream: `lab_pi_id` and `audio`, and the
      optional `sample_rate` and `channels` (None when the key is absent). */
  datatype StreamBody = StreamBody(labPiId: Option<string>, audio: Option<string>,
                                   sampleRate: Option<int>, channels: Option<int>)

  /** What `receive_audio` broadcasts to the audio namespace. */
  datatype Broadcast = Broadcast(labPiId: string, entry: AudioEntry)

  /** `receive_audio`: 400 and no change when the id or the audio is missing or
      empty; otherwise the node's latest frame is replaced (rate and channel
      count defaulting to 16000 and 1), the frame is broadcast, and 200. */
  function ReceiveAudio(h: Hub, body: StreamBody): (r: (Hub, int, Option<Broadcast>))
    ensures !Truthy(body.labPiId) || !Truthy(body.audio) ==> r == (h, 400, None)
    ensures Truthy(body.labPiId) && Truthy(body.audio) ==>
      var id := body.labPiId.value;
      var e := AudioEntry(body.audio.value,
                          if body.sampleRate.Some? then body.sampleRate.value else DefaultSampleRate,
                          if body.channels.Some? then body.channels.value else DefaultChannels);
      && r.1 == 200
      && r.0.latest.Keys == h.latest.Keys + {id}
      && r.0.latest[id] == e
      && (forall k :: k in h.latest && k != id ==> r.0.latest[k] == h.latest[k])
      && r.0.sessions == h.sessions && r.0.order == h.order
      && r.2 == Some(Broadcast(id, e))
  {
    if !Truthy(body.labPiId) || !Truthy(body.audio) then (h, 400, None)
    else
      var e := AudioEntry(body.audio.value,
                          if body.sampleRate.Some? then body.sampleRate.value else DefaultSampleRate,
                          if body.channels.Some? then body.channels.value else DefaultChannels);
      (h.(latest := h.latest[body.labPiId.value := e]), 200, Some(Broadcast(body.labPiId.value, e)))
  }

  /** The answer `handle_offer` returns. */
  datatype Answer = Answer(kind: string, sdp: Option<string>, sessionId: string)

  /** `handle_offer`: the offer's sdp is echoed back as an answer, with the
      session id defaulting to "default" when absent. No table changes. */
  function HandleOffer(sdp: Option<string>, sessionId: Option<string>): (a: Answer)
    ensures a.kind == "answer" && a.sdp == sdp
    ensures sessionId.Some? ==> a.sessionId == sessionId.value
    ensures sessionId.None? ==> a.sessionId == DefaultSessionId
  {
    Answer("answer", sdp, if sessionId.Some? then sessionId.value else DefaultSessionId)
  }

  /** The ids among `ids` whose session is active. */
  function ActiveAmong(h: Hub, ids: seq<string>): set<string>
  {
    set k | k in ids && k in h.sessions && h.sessions[k].active
  }

  /** The first id of a sequence without repetitions does not occur in the rest. */
  lemma DistinctHead(o: seq<string>, from: nat)
    requires Distinct(o) && from < |o|
    ensures o[from] !in o[from + 1..]
  {
  }

  /** Counting the active ids of a list splits at its head. */
  lemma ActiveAmongSplit(h: Hub, ids: seq<string>)
    requires |ids| > 0 && ids[0] !in ids[1..]
    ensures |ActiveAmong(h, ids)|
      == (if ids[0] in h.sessions && h.sessions[ids[0]].active then 1 else 0) + |ActiveAmong(h, ids[1..])|
  {
    assert ids == [ids[0]] + ids[1..];
    var head := if ids[0] in h.sessions && h.sessions[ids[0]].active then {ids[0]} else {};
    assert ActiveAmong(h, ids) == head + ActiveAmong(h, ids[1..]);
  }

  /** The number of ids in `order`, from position `from` on, whose session is
      active. */
  function CountActive(h: Hub, from: nat): (n: nat)
    requires Valid(h) && from <= |h.order|
    ensures n == |ActiveAmong(h, h.order[from..])|
    ensures n <= |h.order| - from
    ensures n == |h.order| - from <==> forall i :: from <= i < |h.order| ==> h.sessions[h.order[i]].active
    decreases |h.order| - from
  {
    if from == |h.order| then
      assert ActiveAmong(h, h.order[from..]) == {};
      0
    else
      var k := h.order[from];
      var rest := CountActive(h, from + 1);
      DistinctHead(h.order, from);
      assert h.order[from..][0] == k && h.order[from..][1..] == h.order[from + 1..];
      ActiveAmongSplit(h, h.order[from..]);
      (if h.sessions[k].active then 1 else 0) + rest
  }

  /** GET /status: the number of sessions and of active sessions. */
  function Status(h: Hub): (r: (nat, nat))
    requires Valid(h)
    ensures r.0 == |h.sessions|
    ensures r.1 == |set k | k in h.sessions && h.sessions[k].active|
    ensures r.1 <= r.0
    ensures r.1 == r.0 <==> forall k :: k in h.sessions ==> h.sessions[k].active
  {
    SessionCount(h);
    OrderCoversActive(h);
    AllActiveByOrder(h);
    (|h.sessions|, CountActive(h, 0))
  }

  /** Counting along the whole order counts the active sessions of the table. */
  lemma OrderCoversActive(h: Hub)
    requires Valid(h)
    ensures ActiveAmong(h, h.order[0..]) == set k | k in h.sessions && h.sessions[k].active
  {
    assert h.order[0..] == h.order;
  }

  /** Every id in the order is active exactly when every session is. */
  lemma AllActiveByOrder(h: Hub)
    requires Valid(h)
    ensures (forall i :: 0 <= i < |h.order| ==> h.sessions[h.order[i]].active)
      <==> (forall k :: k in h.sessions ==> h.sessions[k].active)
  {
    if forall i :: 0 <= i < |h.order| ==> h.sessions[h.order[i]].active {
      forall k | k in h.sessions ensures h.sessions[k].active {
        var i :| 0 <= i < |h.order| && h.order[i] == k;
      }
    }
  }

  /** The session id a message names, "default" when absent. */
  function SessionKey(sessionId: Option<string>): string
  {
    if sessionId.Some? then sessionId.value else DefaultSessionId
  }

  /** `audio_start`: the session is set to this socket, active, for the given
      node, overwriting any previous entry in place; the node's latest frame is
      replayed when the node id is truthy and known; the session id is
      acknowledged. */
  function AudioStart(h: Hub, sid: string, sessionId: Option<string>, labPiId: Option<string>):
    (r: (Hub, Option<AudioEntry>, string))
    requires Valid(h)
    ensures Valid(r.0)
    ensures var k := SessionKey(sessionId);
      && r.0.sessions == h.sessions[k := Session(sid, true, labPiId)]
      && r.0.latest == h.latest
      && r.0.order == (if k in h.sessions then h.order else h.order + [k])
      && r.2 == k
    ensures r.1.Some? <==> Truthy(labPiId) && labPiId.value in h.latest
    ensures r.1.Some? ==> r.1.value == h.latest[labPiId.value]
  {
    var k := SessionKey(sessionId);
    var replay := if Truthy(labPiId) && labPiId.value in h.latest then Some(h.latest[labPiId.value]) else None;
    (Put(h, k, Session(sid, true, labPiId)), replay, k)
  }

  /** `audio_stop`: the session is removed when present, the rest keeping
      their order, otherwise nothing changes; the stop is acknowledged either
      way. */
  function AudioStop(h: Hub, sessionId: Option<string>): (r: (Hub, string))
    requires Valid(h)
    ensures Valid(r.0)
    ensures var k := SessionKey(sessionId);
      && r.0.sessions == h.sessions - {k}
      && (k !in h.sessions ==> r.0 == h)
      && (k in h.sessions ==>
            exists i :: 0 <= i < |h.order| && h.order[i] == k && r.0.order == h.order[..i] + h.order[i + 1..])
      && r.0.latest == h.latest
      && r.1 == k
  {
    var k := SessionKey(sessionId);
    if k in h.sessions then (RemoveAt(h, IndexOf(h.order, k)), k)
    else (h, k)
  }

  /** `disconnect`: the first session in insertion order whose socket id is the
      disconnecting one is removed; no other session is touched and the rest
      keep their order. */
  function Disconnect(h: Hub, sid: string): (r: Hub)
    requires Valid(h)
    ensures Valid(r) && r.latest == h.latest
    ensures forall k :: k in r.sessions ==> k in h.sessions && r.sessions[k] == h.sessions[k]
    ensures (forall k :: k in h.sessions ==> h.sessions[k].sid != sid) <==> r == h
    ensures r != h ==>
      exists i :: && 0 <= i < |h.order| && h.sessions[h.order[i]].sid == sid
                  && (forall j :: 0 <= j < i ==> h.sessions[h.order[j]].sid != sid)
                  && r.sessions == h.sessions - {h.order[i]}
                  && r.order == h.order[..i] + h.order[i + 1..]
  {
    var i := FirstWithSid(h, sid, 0);
    if i < |h.order| then RemoveAt(h, i)
    else
      assert forall k :: k in h.sessions ==> h.sessions[k].sid != sid by {
        forall k | k in h.sessions ensures h.sessions[k].sid != sid {
          var j :| 0 <= j < |h.order| && h.order[j] == k;
        }
      }
      h
  }

  /** Every session in the table is active. */
  predicate AllActive(h: Hub)
  {
    forall k :: k in h.sessions ==> h.sessions[k].active
  }

  /** `audio_start` is the only insertion and it inserts an active session, so
      every handler keeps all sessions active. */
  lemma AllActiveKept(h: Hub, sid: string, sessionId: Option<string>, labPiId: Option<string>, body: StreamBody)
    requires Valid(h) && AllActive(h)
    ensures AllActive(AudioStart(h, sid, sessionId, labPiId).0)
    ensures AllActive(AudioStop(h, sessionId).0)
    ensures AllActive(Disconnect(h, sid))
    ensures AllActive(ReceiveAudio(h, body).0)
  {
  }

  /** Since every session is active, the status reports as many active
      sessions as sessions; the empty hub is such a hub. */
  lemma StatusCountsAgree(h: Hub)
    requires Valid(h) && AllActive(h)
    ensures Status(h).1 == Status(h).0
    ensures Valid(Hub(map[], map[], [])) && AllActive(Hub(map[], map[], []))
  {
  }

  /** Starting a new session and stopping it restores the hub. */
  lemma StartStopRoundTrip(h: Hub, sid: string, sessionId: Option<string>, labPiId: Option<string>)
    requires Valid(h) && SessionKey(sessionId) !in h.sessions
    ensures AudioStop(AudioStart(h, sid, sessionId, labPiId).0, sessionId).0 == h
  {
    var k := SessionKey(sessionId);
    var started := AudioStart(h, sid, sessionId, labPiId).0;
    assert started.order == h.order + [k];
    assert IndexOf(started.order, k) == |h.order|;
    assert started.order[..|h.order|] == h.order;
    assert started.sessions - {k} == h.sessions;
  }

  /** When exactly one session has the socket id, `disconnect` removes that one. */
  lemma DisconnectUnique(h: Hub, sid: string, k: string)
    requires Valid(h) && k in h.sessions && h.sessions[k].sid == sid
    requires forall k' :: k' in h.sessions && k' != k ==> h.sessions[k'].sid != sid
    ensures Disconnect(h, sid).sessions == h.sessions - {k}
  {
    var i := FirstWithSid(h, sid, 0);
    var at := IndexOf(h.order, k);
    assert i <= at;
    assert h.order[i] == k;
  }

  /** After `audio_start` from a socket that held no session, the started
      session is the only one with that socket id. */
  lemma StartedIsOnlyMatch(h: Hub, sid: string, sessionId: Option<string>, labPiId: Option<string>)
    requires Valid(h) && forall k :: k in h.sessions ==> h.sessions[k].sid != sid
    ensures var started := AudioStart(h, sid, sessionId, labPiId).0;
      && Valid(started)
      && SessionKey(sessionId) in started.sessions
      && started.sessions[SessionKey(sessionId)].sid == sid
      && started.sessions - {SessionKey(sessionId)} == h.sessions - {SessionKey(sessionId)}
      && forall k' :: k' in started.sessions && k' != SessionKey(sessionId) ==> started.sessions[k'].sid != sid
  {
  }

  /** A socket that holds one session loses exactly that session when it
      disconnects. */
  lemma DisconnectRemovesStarted(h: Hub, sid: string, sessionId: Option<string>, labPiId: Option<string>)
    requires Valid(h) && forall k :: k in h.sessions ==> h.sessions[k].sid != sid
    ensures Disconnect(AudioStart(h, sid, sessionId, labPiId).0, sid).sessions == h.sessions - {SessionKey(sessionId)}
  {
    StartedIsOnlyMatch(h, sid, sessionId, labPiId);
    DisconnectUnique(AudioStart(h, sid, sessionId, labPiId).0, sid, SessionKey(sessionId));
  }

  /** A listener that starts after a frame arrived is sent that frame. */
  lemma ReceiveThenStartReplays(h: Hub, body: StreamBody, sid: string, sessionId: Option<string>)
    requires Valid(h) && Truthy(body.labPiId) && Truthy(body.audio)
    ensures var received := ReceiveAudio(h, body);
      AudioStart(received.0, sid, sessionId, body.labPiId).1 == Some(received.2.value.entry)
  {
  }
}

=== FILE: base64.dfy ===
/**
  The base 64 encoding of section 4 of RFC 4648 (alphabet A-Z a-z 0-9 + /,
  '=' padding), which the audio pipeline applies to every captured frame
  before it is queued, and its decoder.
 */
module Base64 {
  import opened Common

  /** A byte of a captured frame. */
  type byte = x: int | 0 <= x < 256

  /** A 6-bit group, the value one base 64 character carries. */
  type sextet = x: int | 0 <= x < 64

  const Pad: char := '='

  /** The character that encodes a 6-bit value: Table 1 of RFC 4648, section 4
      (A-Z for 0-25, a-z for 26-51, 0-9 for 52-61, '+' for 62, '/' for 63). */
  function IndexChar(i: sextet): (c: char)
    ensures c != Pad
  {
    if i < 26 then ('A' as int + i) as char
    else if i < 52 then ('a' as int + (i - 26)) as char
    else if i < 62 then ('0' as int + (i - 52)) as char
    else if i == 62 then '+'
    else '/'
  }

  /** The 6-bit value a character encodes, or None for a character outside the alphabet. */
  function CharIndex(c: char): Option<sextet>
  {
    if 'A' <= c <= 'Z' then Some(c as int - 'A' as int)
    else if 'a' <= c <= 'z' then Some(c as int - 'a' as int + 26)
    else if '0' <= c <= '9' then Some(c as int - '0' as int + 52)
    else if c == '+' then Some(62)
    else if c == '/' then Some(63)
    else None
  }

  /** `CharIndex` inverts the alphabet table. */
  lemma AlphabetTable(i: sextet)
    ensures CharIndex(IndexChar(i)) == Some(i)
  {
  }

  /** Three bytes as four characters (the 24-bit group of section 4). */
  function EncodeGroup(a: byte, b: byte, c: byte): string
  {
    [IndexChar(a / 4), IndexChar((a % 4) * 16 + b / 16), IndexChar((b % 16) * 4 + c / 64), IndexChar(c % 64)]
  }

  /** `b64encode`: full groups, then a final quantum of one byte (two characters
      and "==") or two bytes (three characters and "="). */
  function Encode(d: seq<byte>): (r: string)
    ensures |r| == 4 * ((|d| + 2) / 3)
    ensures |d| > 0 ==> |r| >= 4
    decreases |d|
  {
    if |d| == 0 then ""
    else if |d| == 1 then [IndexChar(d[0] / 4), IndexChar((d[0] % 4) * 16), Pad, Pad]
    else if |d| == 2 then
      [IndexChar(d[0] / 4), IndexChar((d[0] % 4) * 16 + d[1] / 16), IndexChar((d[1] % 16) * 4), Pad]
    else EncodeGroup(d[0], d[1], d[2]) + Encode(d[3..])
  }

  /** The first byte of a group: six bits of the first character, two of the second. */
  function Hi(c0: sextet, c1: sextet): byte
  {
    (c0 as int) * 4 + (c1 as int) / 16
  }

  /** The second byte: four bits of the second character, four of the third. */
  function Mid(c1: sextet, c2: sextet): byte
  {
    ((c1 as int) % 16) * 16 + (c2 as int) / 4
  }

  /** The third byte: two bits of the third character, six of the fourth. */
  function Lo(c2: sextet, c3: sextet): byte
  {
    ((c2 as int) % 4) * 64 + c3 as int
  }

  /** Four unpadded characters back to three bytes. */
  function DecodeGroup(q: string): Option<seq<byte>>
    requires |q| == 4
  {
    match (CharIndex(q[0]), CharIndex(q[1]), CharIndex(q[2]), CharIndex(q[3]))
    case (Some(c0), Some(c1), Some(c2), Some(c3)) =>
      Some([Hi(c0, c1), Mid(c1, c2), Lo(c2, c3)])
    case _ => None
  }

  /** The last quantum, which may carry one or two padding characters. */
  function DecodeFinal(q: string): Option<seq<byte>>
    requires |q| == 4
  {
    if q[2] == Pad && q[3] == Pad then
      match (CharIndex(q[0]), CharIndex(q[1]))
      case (Some(c0), Some(c1)) =>
        Some([Hi(c0, c1)])
      case _ => None
    else if q[3] == Pad then
      match (CharIndex(q[0]), CharIndex(q[1]), CharIndex(q[2]))
      case (Some(c0), Some(c1), Some(c2)) =>
        Some([Hi(c0, c1), Mid(c1, c2)])
      case _ => None
    else DecodeGroup(q)
  }

  /** Decoding; None for a length that is not a multiple of four, a character
      outside the alphabet, or padding before the last quantum. */
  function Decode(s: string): (r: Option<seq<byte>>)
    ensures r.Some? ==> |s| % 4 == 0
    decreases |s|
  {
    if |s| == 0 then Some([])
    else if |s| < 4 then None
    else if |s| == 4 then DecodeFinal(s)
    else
      match DecodeGroup(s[..4])
      case None => None
      case Some(head) =>
        match Decode(s[4..])
        case None => None
        case Some(tail) => Some(head + tail)
  }

  /** Splitting a value built as `hi * k + lo` recovers both parts, for the
      three radices base 64 uses. */
  lemma SplitByte(hi: int, lo: int, k: int)
    requires k == 4 || k == 16 || k == 64
    requires 0 <= lo < k
    ensures (hi * k + lo) / k == hi
    ensures (hi * k + lo) % k == lo
  {
    if k == 4 {
      assert hi * k + lo == hi * 4 + lo;
    } else if k == 16 {
      assert hi * k + lo == hi * 16 + lo;
    } else {
      assert hi * k + lo == hi * 64 + lo;
    }
  }

  /** One full group decodes back to the bytes it encodes. */
  lemma GroupRoundTrip(a: byte, b: byte, c: byte)
    ensures DecodeGroup(EncodeGroup(a, b, c)) == Some([a, b, c])
  {
    AlphabetTable(a / 4);
    AlphabetTable((a % 4) * 16 + b / 16);
    AlphabetTable((b % 16) * 4 + c / 64);
    AlphabetTable(c % 64);
    SplitByte(a % 4, b / 16, 16);
    SplitByte(b % 16, c / 64, 64);
    assert Hi(a / 4, (a % 4) * 16 + b / 16) == a;
    assert Mid((a % 4) * 16 + b / 16, (b % 16) * 4 + c / 64) == b;
    assert Lo((b % 16) * 4 + c / 64, c % 64) == c;
  }

  /** A one-byte final quantum ("xx==") decodes back to its byte. */
  lemma FinalOneRoundTrip(a: byte)
    ensures DecodeFinal(Encode([a])) == Some([a])
  {
    var c0, c1 := a / 4, (a % 4) * 16;
    AlphabetTable(c0);
    AlphabetTable(c1);
    SplitByte(a % 4, 0, 16);
    assert Hi(c0, c1) == a;
  }

  /** A two-byte final quantum ("xxx=") decodes back to its bytes. */
  lemma FinalTwoRoundTrip(a: byte, b: byte)
    ensures DecodeFinal(Encode([a, b])) == Some([a, b])
  {
    var c0, c1, c2 := a / 4, (a % 4) * 16 + b / 16, (b % 16) * 4;
    AlphabetTable(c0);
    AlphabetTable(c1);
    AlphabetTable(c2);
    SplitByte(a % 4, b / 16, 16);
    SplitByte(b % 16, 0, 4);
    assert Hi(c0, c1) == a;
    assert Mid(c1, c2) == b;
  }

  /** A full group followed by a decodable rest decodes to the concatenation. */
  lemma DecodeAppend(g: string, rest: string, h: seq<byte>, t: seq<byte>)
    requires |g| == 4 && |rest| > 0
    requires DecodeGroup(g) == Some(h) && Decode(rest) == Some(t)
    ensures Decode(g + rest) == Some(h + t)
  {
    var s := g + rest;
    assert s[..4] == g;
    assert s[4..] == rest;
  }

  /** An input of at most two bytes decodes back from its single padded quantum. */
  lemma ShortRoundTrip(d: seq<byte>)
    requires |d| <= 2
    ensures Decode(Encode(d)) == Some(d)
  {
    if |d| == 1 {
      FinalOneRoundTrip(d[0]);
      assert d == [d[0]];
    } else if |d| == 2 {
      FinalTwoRoundTrip(d[0], d[1]);
      assert d == [d[0], d[1]];
    }
  }

  /** Exactly three bytes decode back from their one unpadded quantum. */
  lemma OneGroupRoundTrip(d: seq<byte>)
    requires |d| == 3
    ensures Decode(Encode(d)) == Some(d)
  {
    GroupRoundTrip(d[0], d[1], d[2]);
    assert d[3..] == [];
    assert Encode(d) == EncodeGroup(d[0], d[1], d[2]);
    assert DecodeFinal(Encode(d)) == DecodeGroup(Encode(d));
    assert d == [d[0], d[1], d[2]];
  }

  /** A sequence of at least three bytes is its first three and the rest. */
  lemma SplitThree(d: seq<byte>)
    requires |d| >= 3
    ensures d == [d[0], d[1], d[2]] + d[3..]
  {
  }

  /** Encoding more than three bytes is the first group, then the rest. */
  lemma EncodeUnfold(d: seq<byte>)
    requires |d| > 3
    ensures Encode(d) == EncodeGroup(d[0], d[1], d[2]) + Encode(d[3..])
    ensures |Encode(d[3..])| > 0
  {
  }

  /** A leading full group followed by a rest that round-trips round-trips. */
  lemma GroupStep(d: seq<byte>)
    requires |d| > 3 && Decode(Encode(d[3..])) == Some(d[3..])
    ensures Decode(Encode(d)) == Some(d)
  {
    EncodeUnfold(d);
    GroupRoundTrip(d[0], d[1], d[2]);
    DecodeAppend(EncodeGroup(d[0], d[1], d[2]), Encode(d[3..]), [d[0], d[1], d[2]], d[3..]);
    SplitThree(d);
  }

  /** Round trip: every byte string decodes back from its encoding. */
  lemma {:induction false} RoundTrip(d: seq<byte>)
    ensures Decode(Encode(d)) == Some(d)
    decreases |d|
  {
    if |d| <= 2 {
      ShortRoundTrip(d);
    } else if |d| == 3 {
      OneGroupRoundTrip(d);
    } else {
      RoundTrip(d[3..]);
      GroupStep(d);
    }
  }

  /** The encoding only uses alphabet characters and '=' padding, and padding
      appears only in the last two positions. */
  lemma {:induction false} EncodeAlphabet(d: seq<byte>)
    ensures forall i :: 0 <= i < |Encode(d)| ==> CharIndex(Encode(d)[i]).Some? || Encode(d)[i] == Pad
    ensures forall i :: 0 <= i < |Encode(d)| - 2 ==> Encode(d)[i] != Pad
    decreases |d|
  {
    var e := Encode(d);
    if |d| >= 3 {
      EncodeAlphabet(d[3..]);
      var g := EncodeGroup(d[0], d[1], d[2]);
      assert e == g + Encode(d[3..]);
      forall i | 0 <= i < |e|
        ensures CharIndex(e[i]).Some? || e[i] == Pad
        ensures i < |e| - 2 ==> e[i] != Pad
      {
        if i < 4 {
          var v: sextet :| IndexChar(v) == e[i];
          AlphabetTable(v);
        } else {
          assert e[i] == Encode(d[3..])[i - 4];
        }
      }
    } else if |d| > 0 {
      forall i | 0 <= i < |e| && e[i] != Pad
        ensures CharIndex(e[i]).Some?
      {
        var v: sextet :| IndexChar(v) == e[i];
        AlphabetTable(v);
      }
    }
  }
}

=== FILE: common.dfy ===
/**
  Small helpers shared by every component: an optional value, Python's
  truthiness of an optional string, and `str.rstrip` for one character.
 */
module Common {

  /** The conventional Some/None datatype; `None` stands for Python's `None`
      or for a key that is absent from a JSON object. */
  datatype Option<+T> = None | Some(value: T)

  /** Python truthiness of an optional string: `None` and `""` are false. */
  predicate Truthy(s: Option<string>)
  {
    s.Some? && s.value != ""
  }

  /** `s.rstrip(c)`: removes every trailing occurrence of `c`, and nothing else. */
  function RStrip(s: string, c: char): (r: string)
    ensures r <= s
    ensures |r| == 0 || r[|r| - 1] != c
    ensures forall i :: |r| <= i < |s| ==> s[i] == c
    decreases |s|
  {
    if |s| == 0 || s[|s| - 1] != c then s else RStrip(s[..|s| - 1], c)
  }

  /** Stripping is idempotent, and a string that does not end in `c` is left alone. */
  lemma {:induction false} RStripIdempotent(s: string, c: char)
    ensures RStrip(RStrip(s, c), c) == RStrip(s, c)
    ensures (|s| == 0 || s[|s| - 1] != c) ==> RStrip(s, c) == s
  {
  }

  /** The three properties of `RStrip`'s contract determine its result. */
  lemma RStripUnique(s: string, c: char, r: string)
    requires r <= s
    requires |r| == 0 || r[|r| - 1] != c
    requires forall i :: |r| <= i < |s| ==> s[i] == c
    ensures r == RStrip(s, c)
  {
  }
}

=== FILE: lab_node.dfy ===
/**
  The Lab node runtime of `lab_pi_app.py`: the node state record and every
  handler that changes it, each as a pure transition. The inputs of a handler
  are the request fields, the outcome of the call to the Master, whether the
  GPIO write succeeded, and the current time in whole seconds.
 */
module LabNode {
  import opened Common

  /** Session length after which the monitor ends a session (seconds). */
  const MaxSessionSeconds := 3600
  /** Heartbeat failure count at which the heartbeat loop re-registers. */
  const FailureThreshold := 5
  /** Level the app writes to energize the relay (active high). */
  const LevelOn := 1
  /** Level the app writes to de-energize the relay. */
  const LevelOff := 0

  /** The `LabPiState` record, minus the static identity fields other than the id. */
  datatype NodeState = NodeState(
    nodeId: string,
    // registration
    registered: bool,
    recordId: Option<int>,
    registeredAt: Option<int>,
    // session
    sessionActive: bool,
    sessionKey: Option<string>,
    sessionStart: Option<int>,
    userEmail: Option<string>,
    // hardware
    hardwareReady: bool,
    relayState: bool,
    // heartbeat
    lastHeartbeatSent: Option<int>,
    heartbeatFailures: nat,
    startTime: int)

  /** What one relay write does: no GPIO library (or no pin), the write
      succeeds, or the driver raises. */
  datatype Gpio = NoGpio | WriteOk | WriteRaises

  /** A state after a handler, with the levels the handler attempted to write. */
  datatype Out = Out(state: NodeState, writes: seq<int>)

  /** A state after an HTTP handler, with its status code and attempted writes. */
  datatype Reply = Reply(state: NodeState, status: int, writes: seq<int>)

  /** The state the constructor builds at process start. */
  function Initial(nodeId: string, now: int): (s: NodeState)
    ensures s.nodeId == nodeId && s.startTime == now
    ensures !s.registered && !s.sessionActive && !s.relayState && !s.hardwareReady
    ensures s.sessionKey == None && s.sessionStart == None && s.userEmail == None
    ensures s.heartbeatFailures == 0 && s.lastHeartbeatSent == None
  {
    NodeState(nodeId, false, None, None, false, None, None, None, false, false, None, 0, now)
  }

  /** Two states agree on everything except the four session fields and the
      relay flag, the only fields a session handler assigns. */
  predicate SameOutsideSession(s: NodeState, t: NodeState)
  {
    t == s.(sessionActive := t.sessionActive, sessionKey := t.sessionKey,
            sessionStart := t.sessionStart, userEmail := t.userEmail, relayState := t.relayState)
  }

  // ---------------------------------------------------------------------------
  // Uptime
  // ---------------------------------------------------------------------------

  /** Hours, minutes and seconds of an uptime. */
  datatype Clock = Clock(hours: int, minutes: int, seconds: int)

  /** `get_uptime`: Python's `//` and `%` by a positive divisor are floor
      division, which Dafny's `/` and `%` agree with for every integer. */
  function Uptime(total: int): (c: Clock)
    ensures c.hours * 3600 + c.minutes * 60 + c.seconds == total
    ensures 0 <= c.minutes < 60 && 0 <= c.seconds < 60
  {
    Clock(total / 3600, (total % 3600) / 60, total % 60)
  }

  /** The decomposition is the only one with minutes and seconds below 60. */
  lemma UptimeUnique(total: int, c: Clock)
    requires c.hours * 3600 + c.minutes * 60 + c.seconds == total
    requires 0 <= c.minutes < 60 && 0 <= c.seconds < 60
    ensures c == Uptime(total)
  {
    var u := Uptime(total);
    var a := c.minutes * 60 + c.seconds;
    var b := u.minutes * 60 + u.seconds;
    assert 0 <= a < 3600 && 0 <= b < 3600;
    assert (c.hours - u.hours) * 3600 == b - a;
    assert c.hours == u.hours;
    assert c.minutes * 60 + c.seconds == u.minutes * 60 + u.seconds;
    assert c.minutes == u.minutes;
  }

  // ---------------------------------------------------------------------------
  // Hardware
  // ---------------------------------------------------------------------------

  /** The levels a relay write attempts: one write when GPIO is present. */
  function Attempt(g: Gpio, level: int): (w: seq<int>)
    ensures g == NoGpio <==> w == []
    ensures g != NoGpio ==> w == [level]
  {
    if g == NoGpio then [] else [level]
  }

  /** `power_on_hardware`: the relay flag becomes true only after a write that
      did not raise; otherwise nothing changes. */
  function PowerOn(s: NodeState, g: Gpio): (o: Out)
    ensures g == WriteOk ==> o.state == s.(relayState := true)
    ensures g != WriteOk ==> o.state == s
    ensures o.writes == Attempt(g, LevelOn)
  {
    Out(if g == WriteOk then s.(relayState := true) else s, Attempt(g, LevelOn))
  }

  /** `power_off_hardware`: the relay flag becomes false only after a write that
      did not raise; a failed write leaves the relay recorded as on. */
  function PowerOff(s: NodeState, g: Gpio): (o: Out)
    ensures g == WriteOk ==> o.state == s.(relayState := false)
    ensures g != WriteOk ==> o.state == s
    ensures o.writes == Attempt(g, LevelOff)
  {
    Out(if g == WriteOk then s.(relayState := false) else s, Attempt(g, LevelOff))
  }

  // ---------------------------------------------------------------------------
  // Sessions
  // ---------------------------------------------------------------------------

  /** The four-field install shared by the push start and a heartbeat-delivered
      session, followed by power-on. Any previous session is replaced. */
  function InstallSession(s: NodeState, key: Option<string>, email: Option<string>, now: int, g: Gpio): (o: Out)
    ensures o.state.sessionActive && o.state.sessionKey == key
    ensures o.state.sessionStart == Some(now) && o.state.userEmail == email
    ensures o.state.relayState == (g == WriteOk || s.relayState)
    ensures SameOutsideSession(s, o.state)
    ensures o.writes == Attempt(g, LevelOn)
  {
    PowerOn(s.(sessionActive := true, sessionKey := key, sessionStart := Some(now), userEmail := email), g)
  }

  /** The four session fields cleared. */
  function ClearSession(s: NodeState): (t: NodeState)
    ensures !t.sessionActive && t.sessionKey == None && t.sessionStart == None && t.userEmail == None
    ensures t.relayState == s.relayState && SameOutsideSession(s, t)
  {
    s.(sessionActive := false, sessionKey := None, sessionStart := None, userEmail := None)
  }

  /** The `end_session` helper: when the session key is truthy, notify the Master
      (no effect on the state), power off, and clear the session; otherwise do
      nothing, even if `sessionActive` is true. */
  function EndSession(s: NodeState, g: Gpio): (o: Out)
    ensures !Truthy(s.sessionKey) ==> o == Out(s, [])
    ensures Truthy(s.sessionKey) ==>
      && !o.state.sessionActive && o.state.sessionKey == None
      && o.state.sessionStart == None && o.state.userEmail == None
      && o.state.relayState == (s.relayState && g != WriteOk)
      && o.writes == Attempt(g, LevelOff)
    ensures SameOutsideSession(s, o.state)
  {
    if Truthy(s.sessionKey) then
      var off := PowerOff(s, g);
      Out(ClearSession(off.state), off.writes)
    else Out(s, [])
  }

  /** POST /api/lab-pi/session-start: a header id other than this node's is
      rejected with 401 and changes nothing; otherwise the session is installed
      (replacing any active one) and power-on is attempted. */
  function SessionStart(s: NodeState, headerId: Option<string>, key: Option<string>,
                        email: Option<string>, now: int, g: Gpio): (r: Reply)
    ensures headerId != Some(s.nodeId) ==> r == Reply(s, 401, [])
    ensures headerId == Some(s.nodeId) ==>
      && r.status == 200
      && r.state.sessionActive && r.state.sessionKey == key
      && r.state.sessionStart == Some(now) && r.state.userEmail == email
      && r.state.relayState == (g == WriteOk || s.relayState)
      && r.writes == Attempt(g, LevelOn)
    ensures SameOutsideSession(s, r.state)
  {
    if headerId != Some(s.nodeId) then Reply(s, 401, [])
    else
      var o := InstallSession(s, key, email, now, g);
      Reply(o.state, 200, o.writes)
  }

  /** POST /api/lab-pi/session-end: no id check, the key is ignored; the session
      is cleared unconditionally and power-off is attempted. */
  function SessionEnd(s: NodeState, g: Gpio): (r: Reply)
    ensures r.status == 200
    ensures !r.state.sessionActive && r.state.sessionKey == None
    ensures r.state.sessionStart == None && r.state.userEmail == None
    ensures r.state.relayState == (s.relayState && g != WriteOk)
    ensures r.writes == Attempt(g, LevelOff)
    ensures SameOutsideSession(s, r.state)
  {
    var off := PowerOff(s, g);
    Reply(ClearSession(off.state), 200, off.writes)
  }

  /** POST /api/session/end: 400 when no session is active; otherwise the
      `end_session` helper runs and the reply is 200, whether or not the helper
      did anything. */
  function ApiEndSession(s: NodeState, g: Gpio): (r: Reply)
    ensures !s.sessionActive ==> r == Reply(s, 400, [])
    ensures s.sessionActive ==> r.status == 200 && Out(r.state, r.writes) == EndSession(s, g)
  {
    if !s.sessionActive then Reply(s, 400, [])
    else
      var o := EndSession(s, g);
      Reply(o.state, 200, o.writes)
  }

  /** POST /api/relay/on: 403 without an active session; 200 and the relay on
      after a successful write; 500 when the write raises; 200 ("simulated") and
      no change without GPIO. */
  function RelayOn(s: NodeState, g: Gpio): (r: Reply)
    ensures !s.sessionActive ==> r == Reply(s, 403, [])
    ensures s.sessionActive ==> r.writes == Attempt(g, LevelOn)
    ensures s.sessionActive && g == WriteOk ==> r.status == 200 && r.state == s.(relayState := true)
    ensures s.sessionActive && g == WriteRaises ==> r.status == 500 && r.state == s
    ensures s.sessionActive && g == NoGpio ==> r.status == 200 && r.state == s
  {
    if !s.sessionActive then Reply(s, 403, [])
    else match g
      case NoGpio => Reply(s, 200, [])
      case WriteOk => Reply(s.(relayState := true), 200, [LevelOn])
      case WriteRaises => Reply(s, 500, [LevelOn])
  }

  /** POST /api/relay/off: as `RelayOn`, with the relay turned off. */
  function RelayOff(s: NodeState, g: Gpio): (r: Reply)
    ensures !s.sessionActive ==> r == Reply(s, 403, [])
    ensures s.sessionActive ==> r.writes == Attempt(g, LevelOff)
    ensures s.sessionActive && g == WriteOk ==> r.status == 200 && r.state == s.(relayState := false)
    ensures s.sessionActive && g == WriteRaises ==> r.status == 500 && r.state == s
    ensures s.sessionActive && g == NoGpio ==> r.status == 200 && r.state == s
  {
    if !s.sessionActive then Reply(s, 403, [])
    else match g
      case NoGpio => Reply(s, 200, [])
      case WriteOk => Reply(s.(relayState := false), 200, [LevelOff])
      case WriteRaises => Reply(s, 500, [LevelOff])
  }

  /** A maintenance action the command endpoint schedules. */
  datatype Maintenance = RestartService | RebootHost

  /** POST /api/command: "restart" and "reboot" are acknowledged with 200 and
      scheduled; anything else is 400. The node state is not involved. */
  function Command(cmd: Option<string>): (r: (int, Option<Maintenance>))
    ensures r.0 == 200 <==> cmd == Some("restart") || cmd == Some("reboot")
    ensures r.0 != 200 ==> r == (400, None)
    ensures cmd == Some("restart") ==> r.1 == Some(RestartService)
    ensures cmd == Some("reboot") ==> r.1 == Some(RebootHost)
  {
    if cmd == Some("restart") then (200, Some(RestartService))
    else if cmd == Some("reboot") then (200, Some(RebootHost))
    else (400, None)
  }

  // ---------------------------------------------------------------------------
  // Registration and heartbeat
  // ---------------------------------------------------------------------------

  /** The outcome of the register call. */
  datatype RegisterReply =
    | RegisterTransportError
    | RegisterStatus(code: int, body: RegisterBody)

  /** A register response body: not JSON, or JSON with an optional `id`. */
  datatype RegisterBody = RegisterNotJson | RegisterJson(id: Option<int>)

  /** `register`: a 200 with a JSON body records the id and time and sets the
      registered flag; every other outcome changes nothing. It never touches the
      failure counter or the session. */
  function Register(s: NodeState, reply: RegisterReply, now: int): (r: (NodeState, bool))
    ensures r.1 <==> reply.RegisterStatus? && reply.code == 200 && reply.body.RegisterJson?
    ensures r.1 ==> r.0 == s.(registered := true, recordId := reply.body.id, registeredAt := Some(now))
    ensures !r.1 ==> r.0 == s
    ensures r.0.heartbeatFailures == s.heartbeatFailures
  {
    match reply
    case RegisterStatus(200, RegisterJson(id)) =>
      (s.(registered := true, recordId := id, registeredAt := Some(now)), true)
    case _ => (s, false)
  }

  /** The outcome of the heartbeat call. */
  datatype HeartbeatReply =
    | HeartbeatTransportError
    | HeartbeatStatus(code: int, body: HeartbeatBody)

  /** A heartbeat response body: not JSON; no new session; a new session with
      its data; `new_session` set but the body has no `session` (or is not an
      object); or `new_session` set with a `session` that is not an object, on
      which `handle_new_session` raises after marking the session active. */
  datatype HeartbeatBody =
    | HeartbeatNotJson
    | NoNewSession
    | NewSession(key: Option<string>, email: Option<string>)
    | NewSessionMalformed
    | NewSessionNotObject

  /** A state after a heartbeat, whether it reported success, and the writes. */
  datatype HeartbeatOut = HeartbeatOut(state: NodeState, ok: bool, writes: seq<int>)

  /** `heartbeat`: a 200 records the send time; a parsed body resets the failure
      counter and installs any new session. A non-200 or transport error adds
      exactly one to the counter and changes nothing else. A body that is not
      JSON adds one (the reset has not happened yet); a malformed new session
      resets and then adds one, having marked the session active first when the
      `session` value is not an object. */
  function Heartbeat(s: NodeState, reply: HeartbeatReply, now: int, g: Gpio): (r: HeartbeatOut)
    ensures r.ok <==> reply.HeartbeatStatus? && reply.code == 200
                      && (reply.body.NoNewSession? || reply.body.NewSession?)
    ensures r.ok ==> r.state.heartbeatFailures == 0 && r.state.lastHeartbeatSent == Some(now)
    ensures !(reply.HeartbeatStatus? && reply.code == 200) ==>
      r == HeartbeatOut(s.(heartbeatFailures := s.heartbeatFailures + 1), false, [])
    ensures reply == HeartbeatStatus(200, HeartbeatNotJson) ==>
      r.state == s.(lastHeartbeatSent := Some(now), heartbeatFailures := s.heartbeatFailures + 1)
    ensures reply == HeartbeatStatus(200, NewSessionMalformed) ==>
      r.state == s.(lastHeartbeatSent := Some(now), heartbeatFailures := 1)
    ensures reply == HeartbeatStatus(200, NewSessionNotObject) ==>
      r.state == s.(lastHeartbeatSent := Some(now), heartbeatFailures := 1, sessionActive := true)
      && r.writes == []
    ensures reply.HeartbeatStatus? && reply.code == 200 && reply.body.NewSession? ==>
      r.state.sessionActive && r.state.sessionKey == reply.body.key
      && r.state.userEmail == reply.body.email && r.state.sessionStart == Some(now)
      && r.state.relayState == (g == WriteOk || s.relayState)
      && r.writes == Attempt(g, LevelOn)
    ensures !(reply.HeartbeatStatus? && reply.code == 200 && (reply.body.NewSession? || reply.body.NewSessionNotObject?)) ==>
      r.writes == [] && r.state.sessionActive == s.sessionActive && r.state.sessionKey == s.sessionKey
      && r.state.sessionStart == s.sessionStart && r.state.userEmail == s.userEmail
      && r.state.relayState == s.relayState
    ensures r.state == s.(sessionActive := r.state.sessionActive, sessionKey := r.state.sessionKey,
                          sessionStart := r.state.sessionStart, userEmail := r.state.userEmail,
                          relayState := r.state.relayState, lastHeartbeatSent := r.state.lastHeartbeatSent,
                          heartbeatFailures := r.state.heartbeatFailures)
  {
    match reply
    case HeartbeatTransportError =>
      HeartbeatOut(s.(heartbeatFailures := s.heartbeatFailures + 1), false, [])
    case HeartbeatStatus(code, body) =>
      if code != 200 then HeartbeatOut(s.(heartbeatFailures := s.heartbeatFailures + 1), false, [])
      else
        var sent := s.(lastHeartbeatSent := Some(now));
        match body
        case HeartbeatNotJson => HeartbeatOut(sent.(heartbeatFailures := s.heartbeatFailures + 1), false, [])
        case NoNewSession => HeartbeatOut(sent.(heartbeatFailures := 0), true, [])
        case NewSessionMalformed => HeartbeatOut(sent.(heartbeatFailures := 1), false, [])
        case NewSessionNotObject => HeartbeatOut(sent.(heartbeatFailures := 1, sessionActive := true), false, [])
        case NewSession(key, email) =>
          var o := InstallSession(sent.(heartbeatFailures := 0), key, email, now, g);
          HeartbeatOut(o.state, true, o.writes)
  }

  /** One iteration of `heartbeat_thread`, with the calls it made. */
  datatype LoopOut = LoopOut(state: NodeState, heartbeatCalled: bool, registerCalled: bool, writes: seq<int>)

  /** One iteration of the heartbeat loop: unregistered, it only registers;
      registered, it sends a heartbeat and, when that fails with the counter at
      the threshold or above, clears the registered flag and registers again.
      The counter is not reset by registration. */
  function HeartbeatLoopStep(s: NodeState, hb: HeartbeatReply, reg: RegisterReply, now: int, g: Gpio): (r: LoopOut)
    ensures !s.registered ==> r == LoopOut(Register(s, reg, now).0, false, true, [])
    ensures s.registered ==> r.heartbeatCalled
    ensures s.registered ==>
      var h := Heartbeat(s, hb, now, g);
      r.registerCalled <==> !h.ok && h.state.heartbeatFailures >= FailureThreshold
    ensures r.registerCalled ==> r.state.registered == Register(s, reg, now).1
    ensures s.registered ==> r.writes == Heartbeat(s, hb, now, g).writes
    ensures s.registered && !r.registerCalled ==> r.state == Heartbeat(s, hb, now, g).state
    ensures s.registered && r.registerCalled ==>
      r.state == Register(Heartbeat(s, hb, now, g).state.(registered := false), reg, now).0
    ensures r.state.heartbeatFailures == (if s.registered then Heartbeat(s, hb, now, g).state.heartbeatFailures
                                         else s.heartbeatFailures)
    ensures r.state.nodeId == s.nodeId && r.state.hardwareReady == s.hardwareReady
    ensures r.state.startTime == s.startTime
  {
    if !s.registered then
      LoopOut(Register(s, reg, now).0, false, true, [])
    else
      var h := Heartbeat(s, hb, now, g);
      if !h.ok && h.state.heartbeatFailures >= FailureThreshold then
        LoopOut(Register(h.state.(registered := false), reg, now).0, true, true, h.writes)
      else
        LoopOut(h.state, true, false, h.writes)
  }

  /** One iteration of `session_monitor_thread`: the session is ended only when
      it is active, has a start time and has run strictly longer than the
      maximum; otherwise nothing happens. */
  function MonitorStep(s: NodeState, now: int, g: Gpio): (o: Out)
    ensures s.sessionActive && s.sessionStart.Some? && now - s.sessionStart.value > MaxSessionSeconds ==>
      o == EndSession(s, g)
    ensures !(s.sessionActive && s.sessionStart.Some? && now - s.sessionStart.value > MaxSessionSeconds) ==>
      o == Out(s, [])
  {
    if s.sessionActive && s.sessionStart.Some? && now - s.sessionStart.value > MaxSessionSeconds then
      EndSession(s, g)
    else Out(s, [])
  }
}

=== FILE: lab_node_traces.dfy ===
/**
  The Lab node handlers of module `LabNode` driven as one event stream, with
  the safety, idempotence and recovery properties of the node stated over it,
  and the way the app derives the outcome of a relay write from its GPIO setup.
 */
module LabNodeTraces {
  import opened Common
  import opened LabNode

  /** The process's GPIO setup: whether `lgpio` imported, and the relay pin. */
  datatype Hardware = Hardware(lgpioLoaded: bool, relayPin: int)

  /** `lgpio and RELAY_PIN`: the library is loaded and the pin is truthy (non-zero). */
  predicate GpioPresent(hw: Hardware)
  {
    hw.lgpioLoaded && hw.relayPin != 0
  }

  /** The outcome of a relay write as the app is written: it calls
      `lgpio.gpio_write(RELAY_PIN, level)` with two arguments, while lgpio's
      `gpio_write` takes a chip handle, a pin and a level, so the call raises
      whenever GPIO is present, whatever the driver would have done. */
  function WriteAsWritten(hw: Hardware, driverOk: bool): (g: Gpio)
    ensures g != WriteOk
    ensures g == NoGpio <==> !GpioPresent(hw)
  {
    if GpioPresent(hw) then WriteRaises else NoGpio
  }

  /** The outcome of a relay write with the chip handle passed: it succeeds
      exactly when GPIO is present and the driver accepts the write. */
  function Write(hw: Hardware, driverOk: bool): (g: Gpio)
    ensures g == WriteOk <==> GpioPresent(hw) && driverOk
    ensures g == NoGpio <==> !GpioPresent(hw)
  {
    if !GpioPresent(hw) then NoGpio else if driverOk then WriteOk else WriteRaises
  }

  /** Everything that can change the node state. */
  datatype Event =
    | PushStart(headerId: Option<string>, key: Option<string>, email: Option<string>)
    | PushEnd
    | ApiEnd
    | ManualRelayOn
    | ManualRelayOff
    | HeartbeatTick(hb: HeartbeatReply, reg: RegisterReply)
    | RegisterAttempt(reg: RegisterReply)
    | MonitorTick
    | CommandRequest(cmd: Option<string>)

  /** An event, the time it happens, and whether the relay driver accepts writes then. */
  datatype Timed = Timed(event: Event, now: int, driverOk: bool)

  /** The state after one event, given the outcome of its relay write. */
  function Step(s: NodeState, t: Timed, g: Gpio): NodeState
  {
    match t.event
    case PushStart(id, key, email) => SessionStart(s, id, key, email, t.now, g).state
    case PushEnd => SessionEnd(s, g).state
    case ApiEnd => ApiEndSession(s, g).state
    case ManualRelayOn => RelayOn(s, g).state
    case ManualRelayOff => RelayOff(s, g).state
    case HeartbeatTick(hb, reg) => HeartbeatLoopStep(s, hb, reg, t.now, g).state
    case RegisterAttempt(reg) => Register(s, reg, t.now).0
    case MonitorTick => MonitorStep(s, t.now, g).state
    case CommandRequest(_) => s
  }

  /** A run of events with the corrected relay write. */
  function Run(hw: Hardware, s: NodeState, ts: seq<Timed>): NodeState
    decreases |ts|
  {
    if |ts| == 0 then s else Run(hw, Step(s, ts[0], Write(hw, ts[0].driverOk)), ts[1..])
  }

  /** A run of events with the relay write as the app is written. */
  function RunAsWritten(hw: Hardware, s: NodeState, ts: seq<Timed>): NodeState
    decreases |ts|
  {
    if |ts| == 0 then s else RunAsWritten(hw, Step(s, ts[0], WriteAsWritten(hw, ts[0].driverOk)), ts[1..])
  }

  /** The relay is energized only during a session (and never without GPIO). */
  predicate Safe(hw: Hardware, s: NodeState)
  {
    (s.relayState ==> s.sessionActive) && (!GpioPresent(hw) ==> !s.relayState)
  }

  /** Every relay write in the run is accepted by the driver. */
  predicate DriverReliable(ts: seq<Timed>)
  {
    forall i :: 0 <= i < |ts| ==> ts[i].driverOk
  }

  /** One event keeps the node safe when its relay write cannot fail. */
  lemma StepSafe(hw: Hardware, s: NodeState, t: Timed)
    requires Safe(hw, s) && t.driverOk
    ensures Safe(hw, Step(s, t, Write(hw, t.driverOk)))
  {
  }

  /** Safety along a whole run: from a safe state, with a driver that accepts
      every write, the relay is never on outside a session. */
  lemma {:induction false} SafetyAlongRun(hw: Hardware, s: NodeState, ts: seq<Timed>)
    requires Safe(hw, s) && DriverReliable(ts)
    ensures Safe(hw, Run(hw, s, ts))
    decreases |ts|
  {
    if |ts| > 0 {
      StepSafe(hw, s, ts[0]);
      assert DriverReliable(ts[1..]) by {
        forall i | 0 <= i < |ts[1..]| ensures ts[1..][i].driverOk {
          assert ts[1..][i] == ts[i + 1];
        }
      }
      SafetyAlongRun(hw, Step(s, ts[0], Write(hw, ts[0].driverOk)), ts[1..]);
    }
  }

  /** The freshly constructed state is safe. */
  lemma InitialSafe(hw: Hardware, id: string, now: int)
    ensures Safe(hw, Initial(id, now))
  {
  }

  /** Safety is not guaranteed by the source: a push session-end whose
      power-off raises clears the session and leaves the relay on. */
  lemma FailedPowerOffLeavesRelayOn(s: NodeState)
    requires s.sessionActive && s.relayState
    ensures var r := SessionEnd(s, WriteRaises).state;
      r.relayState && !r.sessionActive
  {
  }

  /** As written, the app never energizes the relay: from a state with the
      relay off, no run turns it on. */
  lemma {:induction false} AsWrittenNeverEnergizes(hw: Hardware, s: NodeState, ts: seq<Timed>)
    requires !s.relayState
    ensures !RunAsWritten(hw, s, ts).relayState
    decreases |ts|
  {
    if |ts| > 0 {
      var g := WriteAsWritten(hw, ts[0].driverOk);
      assert !Step(s, ts[0], g).relayState;
      AsWrittenNeverEnergizes(hw, Step(s, ts[0], g), ts[1..]);
    }
  }

  /** With the corrected write, an authorized push start on present, working
      GPIO energizes the relay, and a push end de-energizes it. */
  lemma CorrectedWriteSwitchesRelay(hw: Hardware, s: NodeState, key: Option<string>, email: Option<string>, now: int)
    requires GpioPresent(hw)
    ensures var on := Step(s, Timed(PushStart(Some(s.nodeId), key, email), now, true), Write(hw, true));
      on.relayState && on.sessionActive
      && !Step(on, Timed(PushEnd, now, true), Write(hw, true)).relayState
  {
  }

  /** No handler assigns `hardwareReady`. */
  lemma StepKeepsHardwareReady(s: NodeState, t: Timed, g: Gpio)
    ensures Step(s, t, g).hardwareReady == s.hardwareReady
  {
  }

  /** `hardwareReady` is never assigned after construction. */
  lemma {:induction false} HardwareReadyConstant(hw: Hardware, s: NodeState, ts: seq<Timed>)
    ensures Run(hw, s, ts).hardwareReady == s.hardwareReady
    ensures RunAsWritten(hw, s, ts).hardwareReady == s.hardwareReady
    decreases |ts|
  {
    if |ts| > 0 {
      StepKeepsHardwareReady(s, ts[0], Write(hw, ts[0].driverOk));
      StepKeepsHardwareReady(s, ts[0], WriteAsWritten(hw, ts[0].driverOk));
      HardwareReadyConstant(hw, Step(s, ts[0], Write(hw, ts[0].driverOk)), ts[1..]);
      HardwareReadyConstant(hw, Step(s, ts[0], WriteAsWritten(hw, ts[0].driverOk)), ts[1..]);
    }
  }

  /** The failure counter goes down only on a heartbeat answered with 200 (and
      then only to 0 or, for a malformed new session, to 1); every other event
      leaves it or adds exactly one. */
  lemma FailureCounterDiscipline(s: NodeState, t: Timed, g: Gpio)
    ensures var f := Step(s, t, g).heartbeatFailures;
      && (f < s.heartbeatFailures ==>
            && s.registered && t.event.HeartbeatTick?
            && t.event.hb.HeartbeatStatus? && t.event.hb.code == 200
            && f <= 1)
      && (f == s.heartbeatFailures || f == s.heartbeatFailures + 1 || f <= 1)
      && (!t.event.HeartbeatTick? ==> f == s.heartbeatFailures)
  {
    if t.event.HeartbeatTick? && s.registered {
      var h := Heartbeat(s, t.event.hb, t.now, g);
      assert Step(s, t, g).heartbeatFailures == h.state.heartbeatFailures;
      if !(t.event.hb.HeartbeatStatus? && t.event.hb.code == 200) {
        assert h.state.heartbeatFailures == s.heartbeatFailures + 1;
      }
    }
  }

  /** Ending through the helper twice is ending once: the second call finds no
      key and writes nothing. */
  lemma EndSessionIdempotent(s: NodeState, g: Gpio, g': Gpio)
    ensures var once := EndSession(s, g).state;
      EndSession(once, g') == Out(once, [])
  {
  }

  /** A push session-end applied twice leaves the same state as once; each
      delivery attempts a power-off again. */
  lemma PushEndIdempotent(s: NodeState, g: Gpio)
    ensures var once := SessionEnd(s, g).state;
      SessionEnd(once, g).state == once
      && SessionEnd(once, g).writes == SessionEnd(s, g).writes
  {
  }

  /** A session installed without a key cannot be ended by the operator
      endpoint: it answers 200 and the session stays active. */
  lemma KeylessSessionSurvivesApiEnd(s: NodeState, email: Option<string>, now: int, g: Gpio)
    ensures var started := SessionStart(s, Some(s.nodeId), None, email, now, g).state;
      var r := ApiEndSession(started, g);
      r.status == 200 && r.state == started && r.state.sessionActive
  {
  }

  /** A session start replaces the active session whatever it was. */
  lemma StartReplacesSession(s: NodeState, key: Option<string>, email: Option<string>, now: int, g: Gpio)
    requires s.sessionActive
    ensures var r := SessionStart(s, Some(s.nodeId), key, email, now, g).state;
      r.sessionKey == key && r.userEmail == email && r.sessionStart == Some(now)
  {
  }

  /** The monitor's boundary: at exactly the maximum nothing happens; one second
      later a keyed session is ended. */
  lemma MonitorBoundary(s: NodeState, start: int, g: Gpio)
    requires s.sessionActive && s.sessionStart == Some(start) && Truthy(s.sessionKey)
    ensures MonitorStep(s, start + MaxSessionSeconds, g).state == s
    ensures !MonitorStep(s, start + MaxSessionSeconds + 1, g).state.sessionActive
  {
  }

  /** `n` heartbeat-loop iterations whose heartbeats all fail in transport, each
      followed by the registration attempt that iteration makes, if any. */
  function FailStreak(s: NodeState, n: nat, reg: RegisterReply, now: int): LoopOut
    decreases n
  {
    if n == 0 then LoopOut(s, false, false, [])
    else
      var prev := FailStreak(s, n - 1, reg, now);
      HeartbeatLoopStep(prev.state, HeartbeatTransportError, reg, now, NoGpio)
  }

  /** One failing iteration of a registered node whose Master accepts
      registration: the counter grows by one, the node stays registered, and
      it registers again exactly when the new count reaches the threshold. */
  lemma FailedIteration(p: NodeState, id: Option<int>, now: int)
    requires p.registered
    ensures var r := HeartbeatLoopStep(p, HeartbeatTransportError, RegisterStatus(200, RegisterJson(id)), now, NoGpio);
      && r.state.heartbeatFailures == p.heartbeatFailures + 1
      && r.state.registered
      && (r.registerCalled <==> p.heartbeatFailures + 1 >= FailureThreshold)
      && r.state.sessionActive == p.sessionActive && r.state.relayState == p.relayState
  {
  }

  /** Failure-triggered re-registration: from a registered node with no
      failures and a Master that accepts registration, the counter after `n`
      failing iterations is `n`; the n-th iteration registers again exactly when
      `n` reaches the threshold, and since the counter is not reset, every later
      failure registers again too. */
  lemma {:induction false} FailStreakReRegisters(s: NodeState, n: nat, id: Option<int>, now: int)
    requires s.registered && s.heartbeatFailures == 0
    ensures var r := FailStreak(s, n, RegisterStatus(200, RegisterJson(id)), now);
      && r.state.heartbeatFailures == n
      && r.state.registered
      && (n > 0 ==> (r.registerCalled <==> n >= FailureThreshold))
      && r.state.sessionActive == s.sessionActive && r.state.relayState == s.relayState
    decreases n
  {
    if n > 0 {
      var reg := RegisterStatus(200, RegisterJson(id));
      var prev := FailStreak(s, n - 1, reg, now);
      FailStreakReRegisters(s, n - 1, id, now);
      FailedIteration(prev.state, id, now);
      assert FailStreak(s, n, reg, now) == HeartbeatLoopStep(prev.state, HeartbeatTransportError, reg, now, NoGpio);
    }
  }

  /** After a failure streak, one successful heartbeat resets the counter. */
  lemma SuccessResetsCounter(s: NodeState, now: int, g: Gpio, reg: RegisterReply)
    requires s.registered
    ensures HeartbeatLoopStep(s, HeartbeatStatus(200, NoNewSession), reg, now, g).state.heartbeatFailures == 0
  {
  }

  /** A heartbeat whose `session` is not an object leaves an active session
      with no key and no start time: the operator endpoint acknowledges but
      does not end it, the monitor never times it out, and only a push
      session-end clears it. */
  lemma HalfInstalledSessionIsStuck(s: NodeState, reg: RegisterReply, now: int, later: int, g: Gpio)
    requires s.registered && !s.sessionActive && s.sessionKey == None && s.sessionStart == None
    ensures var stuck := HeartbeatLoopStep(s, HeartbeatStatus(200, NewSessionNotObject), reg, now, g).state;
      && stuck.sessionActive && stuck.sessionKey == None
      && ApiEndSession(stuck, g) == Reply(stuck, 200, [])
      && MonitorStep(stuck, later, g) == Out(stuck, [])
      && !SessionEnd(stuck, g).state.sessionActive
  {
  }
}

=== FILE: session_poller.dfy ===
/**
  The poll-fallback controller of `lab_pi_session_poller.py`: `SessionPoller`
  as a state over (remembered session key, session end time, hardware running),
  `poll` as a transition over one response from the admin node, and the relay
  calls each transition makes.
 */
module SessionPoller {
  import opened Common

  /** Extra seconds `poll` waits after a not-found response. */
  const NotFoundBackoff := 10

  /** The poller's fields. */
  datatype Poller = Poller(
    adminUrl: string,
    labPiId: string,
    sessionKey: Option<string>,
    sessionEndTime: Option<int>,
    hardwareRunning: bool)

  /** A call to `relay_on` or `relay_off`. */
  datatype RelayCall = RelayOnCall | RelayOffCall

  /** The level each call writes: the relay board is active low. */
  function GpioLevel(c: RelayCall): (level: int)
    ensures c == RelayOnCall <==> level == 0
    ensures c == RelayOffCall <==> level == 1
  {
    match c
    case RelayOnCall => 0
    case RelayOffCall => 1
  }

  /** `end_time` of a running response: absent (or empty), a parsed instant in
      seconds, or a string `fromisoformat` rejects. */
  datatype EndField = NoEnd | EndAt(t: int) | Unparsable

  /** One response to GET /api/lab-pi/<id>/active-session. */
  datatype Response =
    | Ok(status: Option<string>, key: Option<string>, endTime: EndField)
    | NotFound
    | OtherStatus(code: int)
    | TransportError

  /** Which relay calls raise during one poll: `relay_on` and `relay_off` can
      fail independently. */
  datatype Faults = Faults(onRaises: bool, offRaises: bool)

  /** A poll during which no relay call raises. */
  const NoFaults := Faults(false, false)

  /** A poller state with the relay calls made and the extra wait taken. */
  datatype PollOut = PollOut(p: Poller, calls: seq<RelayCall>, backoff: nat)

  /** A poller state after a hardware helper, the calls made, and whether the
      relay call raised (which aborts the rest of `poll`). */
  datatype HwOut = HwOut(p: Poller, calls: seq<RelayCall>, raised: bool)

  /** The constructor: the admin URL loses every trailing '/', nothing is
      remembered and the hardware is off. */
  function Create(adminUrl: string, labPiId: string): (p: Poller)
    ensures p.adminUrl <= adminUrl
    ensures |p.adminUrl| == 0 || p.adminUrl[|p.adminUrl| - 1] != '/'
    ensures forall i :: |p.adminUrl| <= i < |adminUrl| ==> adminUrl[i] == '/'
    ensures p.labPiId == labPiId && p.sessionKey == None && p.sessionEndTime == None && !p.hardwareRunning
  {
    Poller(RStrip(adminUrl, '/'), labPiId, None, None, false)
  }

  /** `start_hardware`: calls `relay_on` only when not running. When that call
      raises, the running flag is left unchanged. */
  function StartHardware(p: Poller, raises: bool): (r: HwOut)
    ensures p.hardwareRunning ==> r == HwOut(p, [], false)
    ensures !p.hardwareRunning ==> r.calls == [RelayOnCall] && r.raised == raises
    ensures !r.raised ==> r.p == p.(hardwareRunning := true)
    ensures r.raised ==> r.p == p
  {
    if p.hardwareRunning then HwOut(p, [], false)
    else if raises then HwOut(p, [RelayOnCall], true)
    else HwOut(p.(hardwareRunning := true), [RelayOnCall], false)
  }

  /** `stop_hardware`: calls `relay_off` only when running, then forgets the key
      and end time. When that call raises, nothing is changed. */
  function StopHardware(p: Poller, raises: bool): (r: HwOut)
    ensures !p.hardwareRunning ==> r == HwOut(p.(sessionKey := None, sessionEndTime := None), [], false)
    ensures p.hardwareRunning ==> r.calls == [RelayOffCall] && r.raised == raises
    ensures !r.raised ==> r.p == p.(sessionKey := None, sessionEndTime := None, hardwareRunning := false)
    ensures r.raised ==> r.p == p
  {
    if p.hardwareRunning && raises then HwOut(p, [RelayOffCall], true)
    else
      var calls := if p.hardwareRunning then [RelayOffCall] else [];
      HwOut(p.(sessionKey := None, sessionEndTime := None, hardwareRunning := false), calls, false)
  }

  /** The part of `poll` that handles a running response whose end time parsed. */
  function PollRunning(p: Poller, key: Option<string>, endTime: Option<int>, now: int, f: Faults): PollOut
  {
    var p1 := p.(sessionEndTime := endTime);
    var started :=
      if key != p.sessionKey then StartHardware(p1.(sessionKey := key), f.onRaises)
      else HwOut(p1, [], false);
    if started.raised then PollOut(started.p, started.calls, 0)
    else if endTime.Some? && now >= endTime.value then
      var stopped := StopHardware(started.p, f.offRaises);
      PollOut(stopped.p, started.calls + stopped.calls, 0)
    else PollOut(started.p, started.calls, 0)
  }

  /** `poll`: one response applied to the poller. `f` says which relay calls
      made during this poll raise; a raise ends the poll, as the handler
      around its body catches it. */
  function Poll(p: Poller, resp: Response, now: int, f: Faults): (r: PollOut)
    ensures r.p.adminUrl == p.adminUrl && r.p.labPiId == p.labPiId
    ensures resp.NotFound? ==> r == PollOut(p, [], NotFoundBackoff)
    ensures resp.OtherStatus? || resp.TransportError? ==> r == PollOut(p, [], 0)
    ensures resp.Ok? && resp.status != Some("running") && resp.status != Some("stopped") ==> r == PollOut(p, [], 0)
    ensures resp.Ok? && resp.status == Some("running") && resp.endTime.Unparsable? ==> r == PollOut(p, [], 0)
    ensures r.backoff == (if resp.NotFound? then NotFoundBackoff else 0)
  {
    match resp
    case NotFound => PollOut(p, [], NotFoundBackoff)
    case OtherStatus(_) => PollOut(p, [], 0)
    case TransportError => PollOut(p, [], 0)
    case Ok(status, key, endField) =>
      if status == Some("running") then
        match endField
        case Unparsable => PollOut(p, [], 0)
        case NoEnd => PollRunning(p, key, None, now, f)
        case EndAt(t) => PollRunning(p, key, Some(t), now, f)
      else if status == Some("stopped") then
        if Truthy(p.sessionKey) || p.hardwareRunning then
          var stopped := StopHardware(p, f.offRaises);
          PollOut(stopped.p, stopped.calls, 0)
        else PollOut(p, [], 0)
      else PollOut(p, [], 0)
  }

  /** The poller's invariant: a remembered session implies running hardware. */
  predicate Inv(p: Poller)
  {
    p.sessionKey.Some? ==> p.hardwareRunning
  }

  /** Every poll whose `relay_on` does not raise preserves the invariant; a
      raising `relay_off` leaves the state it found, which already held it. */
  lemma PollPreservesInv(p: Poller, resp: Response, now: int, offRaises: bool)
    requires Inv(p)
    ensures Inv(Poll(p, resp, now, Faults(false, offRaises)).p)
  {
  }

  /** A raising `relay_on` breaks the invariant: the new key is remembered but
      the hardware is not marked running. */
  lemma RaisingRelayBreaksInv(p: Poller, key: string, now: int, offRaises: bool)
    requires p.sessionKey == None && !p.hardwareRunning
    ensures var r := Poll(p, Ok(Some("running"), Some(key), NoEnd), now, Faults(true, offRaises));
      r.p.sessionKey == Some(key) && !r.p.hardwareRunning && !Inv(r.p)
  {
  }

  /** `start_hardware` is idempotent: afterwards the hardware runs, and a second
      call makes no relay call and changes nothing. */
  lemma StartHardwareIdempotent(p: Poller, raises: bool)
    ensures StartHardware(p, false).p.hardwareRunning
    ensures var once := StartHardware(p, false).p;
      StartHardware(once, raises) == HwOut(once, [], false)
  {
  }

  /** `stop_hardware` is idempotent: afterwards nothing is remembered and the
      hardware is off, and a second call makes no relay call and changes nothing. */
  lemma StopHardwareIdempotent(p: Poller, raises: bool)
    ensures var once := StopHardware(p, false).p;
      once.sessionKey == None && once.sessionEndTime == None && !once.hardwareRunning
      && StopHardware(once, raises) == HwOut(once, [], false)
  {
  }

  /** A running response with a new key remembers it and starts the hardware
      (with no end time, or one still ahead). */
  lemma NewKeyStarts(p: Poller, key: Option<string>, endField: EndField, now: int)
    requires key != p.sessionKey
    requires endField.NoEnd? || (endField.EndAt? && now < endField.t)
    ensures var r := Poll(p, Ok(Some("running"), key, endField), now, NoFaults);
      r.p.sessionKey == key && r.p.hardwareRunning
      && r.calls == (if p.hardwareRunning then [] else [RelayOnCall])
  {
  }

  /** A running response with the remembered key makes no `relay_on` call. */
  lemma SameKeyNoRelayOn(p: Poller, endField: EndField, now: int, f: Faults)
    ensures RelayOnCall !in Poll(p, Ok(Some("running"), p.sessionKey, endField), now, f).calls
  {
  }

  /** The steady state: a running response with the remembered key and an end
      time still ahead (or none) only records the end time; no relay call is
      made, whatever the relay would do, and the key and hardware are kept. */
  lemma SameKeySteadyState(p: Poller, endField: EndField, now: int, f: Faults)
    requires endField.NoEnd? || (endField.EndAt? && now < endField.t)
    ensures Poll(p, Ok(Some("running"), p.sessionKey, endField), now, f)
      == PollOut(p.(sessionEndTime := if endField.EndAt? then Some(endField.t) else None), [], 0)
  {
  }

  /** A running response whose end time has passed (`now >= end`) leaves
      nothing remembered and the hardware off, even when the same response just
      started it: from idle, the poll switches the relay on and then off. */
  lemma ElapsedRunningStops(p: Poller, key: Option<string>, end: int, now: int)
    requires now >= end
    ensures var r := Poll(p, Ok(Some("running"), key, EndAt(end)), now, NoFaults);
      r.p.sessionKey == None && r.p.sessionEndTime == None && !r.p.hardwareRunning
    ensures key != p.sessionKey && !p.hardwareRunning ==>
      Poll(p, Ok(Some("running"), key, EndAt(end)), now, NoFaults).calls == [RelayOnCall, RelayOffCall]
  {
  }

  /** When `relay_on` succeeds and the `relay_off` of the same poll raises, the
      new session stays remembered with the hardware running. */
  lemma FailedStopKeepsNewSession(p: Poller, key: string, end: int, now: int)
    requires now >= end && p.sessionKey == None && !p.hardwareRunning
    ensures var r := Poll(p, Ok(Some("running"), Some(key), EndAt(end)), now, Faults(false, true));
      r.calls == [RelayOnCall, RelayOffCall] && r.p.sessionKey == Some(key)
      && r.p.sessionEndTime == Some(end) && r.p.hardwareRunning
  {
  }

  /** Repeating an already-elapsed running response restarts and stops the
      hardware on every poll. */
  lemma ElapsedRunningRepeats(p: Poller, key: string, end: int, now: int)
    requires now >= end && p.sessionKey == None && !p.hardwareRunning
    ensures var r1 := Poll(p, Ok(Some("running"), Some(key), EndAt(end)), now, NoFaults);
      var r2 := Poll(r1.p, Ok(Some("running"), Some(key), EndAt(end)), now, NoFaults);
      r1.calls == [RelayOnCall, RelayOffCall] && r2.calls == [RelayOnCall, RelayOffCall] && r2.p == r1.p
  {
  }

  /** Under the invariant, a stopped response leaves nothing remembered and the
      hardware off. */
  lemma StoppedStops(p: Poller, now: int)
    requires Inv(p)
    ensures var r := Poll(p, Ok(Some("stopped"), None, NoEnd), now, NoFaults).p;
      r.sessionKey == None && !r.hardwareRunning
  {
  }

  /** Without the invariant a stopped response can leave an empty key: the
      condition uses Python truthiness, and "" is false. */
  lemma StoppedKeepsEmptyKey(p: Poller, now: int)
    requires p.sessionKey == Some("") && !p.hardwareRunning
    ensures Poll(p, Ok(Some("stopped"), None, NoEnd), now, NoFaults).p == p
  {
  }

  /** The poll loop over a sequence of (response, time, whether `relay_off`
      raises) triples, with a `relay_on` that does not raise. */
  function PollAll(p: Poller, rs: seq<(Response, int, bool)>): Poller
    decreases |rs|
  {
    if |rs| == 0 then p else PollAll(Poll(p, rs[0].0, rs[0].1, Faults(false, rs[0].2)).p, rs[1..])
  }

  /** The invariant holds at every point of the poll loop while no `relay_on`
      raises. */
  lemma {:induction false} InvAlongPolls(adminUrl: string, labPiId: string, rs: seq<(Response, int, bool)>)
    ensures Inv(PollAll(Create(adminUrl, labPiId), rs))
  {
    InvAlongPollsFrom(Create(adminUrl, labPiId), rs);
  }

  /** The invariant, once it holds, holds after any sequence of polls whose
      `relay_on` does not raise. */
  lemma {:induction false} InvAlongPollsFrom(p: Poller, rs: seq<(Response, int, bool)>)
    requires Inv(p)
    ensures Inv(PollAll(p, rs))
    decreases |rs|
  {
    if |rs| > 0 {
      PollPreservesInv(p, rs[0].0, rs[0].1, rs[0].2);
      InvAlongPollsFrom(Poll(p, rs[0].0, rs[0].1, Faults(false, rs[0].2)).p, rs[1..]);
    }
  }
}
